=== FILE: README.md ===
# Battleship core, modelled in Dafny

This project models the core of a console Battleship game (written in C++).
It has three parts:

- **The game's ship catalog and board geometry** (`GameImpl`, Game.cpp):
  the constructor clamps the requested dimensions, `isValid` checks a point,
  and `addShip` validates a ship and appends it with the next dense id.
- **One side's board** (`BoardImpl`, Board.cpp): a rows x cols grid of
  `char` markers. `'.'` is empty, `'#'` blocked, `'X'` a hit and `'o'` a
  miss; any other marker is the symbol of a placed ship. The operations are
  `clear`, `block`, `unblock`, `placeShip`, `unplaceShip`, `attack` and
  `allShipsDestroyed`.
- **The automated players** (Player.cpp):
  - `AwfulPlayer` clusters its ships down column 0 and sweeps its attacks
    backwards in row-major order.
  - `MediocrePlayer` and `GoodPlayer` place ships by a backtracking search
    (`placedShips`) with an undo stack. They retry it over rounds of
    block, search and unblock.
  - Both target with a two-state machine: state 1 hunts, state 2 follows up
    a hit. Mediocre searches a cross of reach four around the hit; Good
    keeps a stack of hits and prefers even-parity cells (`diagLeft`) until
    (rows*cols)/2 of its logged attacks are on even cells. On a board with an
    odd number of cells there are (rows*cols)/2 + 1 even cells, so Good stops
    preferring them with one even cell still unattacked (on 3 x 3: five even
    cells, threshold four). The source's comment there speaks of every
    diagonal having been attacked; the count it tests is one short of that on
    such boards. The model follows the count.
  - `createPlayer` maps a type name to a player kind.

Modules:

- `GameRules` (game.dfy): catalog, clamping, the `Game` class and the
  injected random source.
- `Grids` (grid.dfy): the board's operations as functions on a grid value,
  with their lemmas.
- `Boards` (board.dfy): the `Board` class over an `array2<char>`. Each
  method is proved against the grid functions through `Cells()`.
- `Placement` (placement.dfy): `placedShips` as the ghost functions
  `Search`/`AfterPlace` and the recursive methods
  `PlacedShips`/`Backtrack`, plus the retry rounds and Good's random
  fallback.
- `Attacks` (attack.dfy): the attack log and the players' attack-choice
  searches.
- `Players` (players.dfy): the three player classes and the factory.

The random source is a `Random` object passed in. Callers rely only on
`Int(n)` returning a value in `[0, n)`; its congruential step stands in for
the unseen `randInt`.

The source loops "until a fresh cell is found" without a bound. Each such
loop here takes a draw budget and reports whether it finished. When the
flag is true, the result has exactly the property the source's loop
establishes on exit.

## Model

| member | source | states |
|---|---|---|
| GameRules.ClampDims | Game.cpp:53-69 | Dimensions in (0, MAX] are kept; either one <= 0 gives 0 x 0; otherwise MAXROWS x MAXCOLS. The result is in range and is 0 in both axes or in neither |
| GameRules.Game.constructor | Game.cpp:53-69 | The game adopts the clamped dimensions, starts with an empty catalog and satisfies the catalog invariant |
| GameRules.Game.AddShip | Game.cpp:91-117 | Returns true exactly when the catalog accepts the ship: length >= 1 and fits an axis, a printable non-marker symbol not yet used, and total length within rows*cols. On success exactly one entry is appended; otherwise the catalog is unchanged; the invariant is kept |
| GameRules.AddShipKeepsWellFormed | Game.cpp:103-116 | An accepted ship keeps symbols pairwise distinct and the total length within rows*cols, and its id is the old ship count |
| GameRules.FleetCountBound | Game.cpp:119-124 | Every ship has length >= 1, so the number of ships is at most the total length |
| GameRules.Catalog.IsValid | Game.cpp:81-84 | A point is valid exactly when 0 <= r < rows and 0 <= c < cols, and then its row-major index lies in [0, rows*cols) |
| GameRules.Game.NShips | Game.cpp:119-124 | The ship count is between 0 and rows*cols |
| GameRules.Game.ShipLength | Game.cpp:126-129 | For an id in [0, nShips) the length is >= 1 and fits along at least one axis |
| GameRules.Game.ShipSymbol | Game.cpp:131-134 | For an id in [0, nShips) the symbol is printable, not a board marker, and no other ship has it |
| GameRules.RandomPoint | Game.cpp:86-89 | A random point is valid on the board |
| GameRules.Random.Int | Game.cpp:86-89 | The random oracle returns a value in [0, n) |
| Grids.SymbolIndex | Board.cpp:213-218 | The index of the first catalog entry with that symbol, or -1 when none has it |
| Grids.Shown | Board.cpp:170-173 | In shots-only mode only hits and misses stay visible and everything else shows as empty; otherwise the cell is shown as it is |
| Grids.Place | Board.cpp:68-120 | A successful placement has an id in [0, nShips) and an anchor that passes the early checks; the symbol was not on the board, the footprint lies on the board, was all empty before, and holds the ship's symbol after |
| Grids.Unplace | Board.cpp:122-151 | A successful unplacement has an id in [0, nShips); the footprint held the ship's symbol before and is all empty after |
| Grids.AttackShot | Board.cpp:182-230 | The shot is accepted exactly when the point is on the board and not already hit or missed; a hit is always accepted; a non-hit is never destroying and reports id -1 |
| Grids.AttackGrid | Board.cpp:182-230 | The grid keeps its shape and every other cell; a refused shot changes nothing; an accepted shot leaves the cell no longer attackable |
| Grids.Unblocked | Board.cpp:57-66 | The grid keeps its shape, no cell is blocked afterwards, blocked cells become empty and every other cell is unchanged |
| Grids.AllDestroyed | Board.cpp:232-243 | When every ship is destroyed, no blocked cell remains |
| Grids.PlaceSucceedsIff | Board.cpp:68-120 | A placement succeeds exactly when the id and anchor pass the checks, the footprint lies on the board and is all empty, and the symbol is not yet on the board |
| Grids.PlacedExactlyOnFootprint | Board.cpp:102-119 | After a placement the footprint holds the ship's symbol, every other cell is unchanged, and the symbol appears nowhere else |
| Grids.PlaceUnplaceRoundTrip | Board.cpp:122-151 | Unplacing a just-placed ship with the same arguments is allowed and restores the grid as it was before the placement |
| Grids.UnplacePlaceRoundTrip | Board.cpp:68-151 | Unplacing a ship and then placing it again with the same arguments succeeds and restores the grid, when the ship's symbol appeared only on that footprint |
| Grids.CountUpdate | Board.cpp:199-211 | Writing one cell changes a marker's count only by that cell |
| Grids.CountRowUpdate | Board.cpp:202-208 | Writing one cell of a row changes the row's count of a marker only by that cell |
| Grids.CountZeroIff | Board.cpp:199-211 | A marker's count is zero exactly when no cell holds it |
| Grids.CountRowZeroIff | Board.cpp:202-208 | A row's count of a marker is zero exactly when no cell of the row holds it |
| Grids.AttackDestroyedIffSymbolGone | Board.cpp:199-227 | A hit reports destroyed exactly when, after the hit, no cell holds the ship's symbol |
| Grids.AttackReportsShipId | Board.cpp:199-222 | On a legal board a hit reports the catalog id of the ship whose symbol was hit |
| Grids.SecondAttackRefused | Board.cpp:185-196 | A second attack at an accepted point is refused and changes nothing |
| Grids.AllDestroyedIffNoShipCells | Board.cpp:232-243 | On a legal board, allShipsDestroyed holds exactly when no ship symbol and no blocked cell remain |
| Grids.UnblockUndoesBlock | Board.cpp:42-66 | Blocking only turns empty cells into blocked ones, so unblocking after it gives what unblocking before would have given |
| Grids.BlockStep | Board.cpp:49-53 | Blocking one more empty cell extends the blocking and adds one to the blocked count |
| Grids.UnblockIdempotent | Board.cpp:57-66 | After unblock no cell is blocked, and a second unblock changes nothing |
| Boards.Board.constructor | Board.cpp:26-32 | A new board has the game's dimensions and every cell empty |
| Boards.Board.Clear | Board.cpp:34-40 | Every cell becomes empty |
| Boards.Board.Block | Board.cpp:42-55 | Only empty cells become blocked; when the draws suffice, the blocked count grows by exactly (rows*cols)/2 |
| Boards.Board.BlockDraw | Board.cpp:47-53 | One random draw returns the drawn on-board cell; it reports blocked exactly when that cell was empty, in which case exactly that cell becomes '#' and the blocked count grows by one; otherwise the board is unchanged |
| Boards.Board.BlockCell | Board.cpp:50-53 | Exactly the drawn empty cell becomes blocked |
| Boards.Board.Unblock | Board.cpp:57-66 | Every blocked cell becomes empty and no other cell changes |
| Boards.Board.FindSymbol | Board.cpp:102-105 | The scan finds the symbol exactly when some cell holds it |
| Boards.Board.RectAll | Board.cpp:108-111 | The scan succeeds exactly when every footprint cell holds the given marker |
| Boards.Board.FillRect | Board.cpp:114-119 | Exactly the footprint cells are overwritten with the given marker |
| Boards.Board.PlaceShip | Board.cpp:68-120 | Returns true exactly when the placement is allowed; the grid is then the placed grid, otherwise unchanged |
| Boards.Board.UnplaceShip | Board.cpp:122-151 | Returns true exactly when the footprint holds the ship's symbol; those cells then become empty, otherwise nothing changes |
| Boards.Board.CountCells | Board.cpp:200-208 | The row-by-row count equals the number of cells holding the marker |
| Boards.Board.ShipIdOf | Board.cpp:213-218 | The catalog scan returns the first index with the symbol, or -1 |
| Boards.Board.Attack | Board.cpp:182-230 | Off-board or repeated shots are refused with hit=false, destroyed=false, id=-1 and no change. A ship cell becomes 'X' with hit=true, destroyed iff it was the last cell of that symbol, and its catalog id. An empty cell becomes 'o'. Only the attacked cell changes |
| Boards.Board.MarkCell | Board.cpp:221-227 | Exactly the attacked cell becomes the hit or miss marker |
| Boards.Board.AllShipsDestroyed | Board.cpp:232-243 | True exactly when every cell is empty, a hit or a miss |
| Placement.Search | Player.cpp:237-291 | A successful search pushes one anchor per remaining ship (nShips - shipId of them); with no ship left it succeeds at once, with the grid unchanged and nothing pushed |
| Placement.AfterPlace | Player.cpp:250-262 | After a placement, a successful continuation or rescan pushes one anchor per ship from k on |
| Placement.KeepsShip | Player.cpp:237-291 | A ship already on the board stays there while non-empty cells are kept |
| Placement.KeepsTrans | Player.cpp:237-291 | Keeping every non-empty cell is transitive across successive placements |
| Placement.PlaceKeeps | Player.cpp:250-252 | A successful placement keeps every non-empty cell, adds no blocked cell and puts the ship on the board |
| Placement.SearchPlacesAll | Player.cpp:237-291 | When the search succeeds, ships shipId..nShips-1 are all on the board, earlier cells are kept, and one anchor per ship is pushed |
| Placement.AfterPlacePlacesAll | Player.cpp:256-262 | After a placement, a successful continuation or rescan puts ships k..nShips-1 on the board |
| Placement.ContinuationPlacesAll | Player.cpp:256-258 | Placing ship k and then, successfully, the ships after it keeps every earlier non-empty cell and puts ships k onwards on the board |
| Placement.PlacedShips | Player.cpp:237-291 | Returns true exactly when the search succeeds. On success the grid is the search's result and the anchors are pushed on the stack; on failure the board and the stack are exactly as at entry |
| Placement.Backtrack | Player.cpp:250-279 | After placing at q, recurse; on failure undo with unplaceShip at the stacked anchor, pop, and scan on from the next column without trying the other direction |
| Placement.UnblockKeepsShips | Player.cpp:299-301 | Unblocking after a successful search leaves every ship on the board and no blocked cell |
| Placement.StartIsScanPoint | Player.cpp:299 | On any well-formed catalog the search may start at (0, 0) with ship 0 |
| Placement.RoundKeeps | Player.cpp:299-301 | A round of block, successful search and unblock keeps every cell that was neither empty nor blocked before it |
| Placement.Rounds | Player.cpp:293-318 | At most the given number of rounds of block, search and unblock. On return no cell is blocked; true means every ship is on the board and every cell that held a ship, hit or miss at entry still holds it; false means the board is only unblocked and the undo stack is as at entry |
| Placement.TryRandomAnchor | Player.cpp:558-561 | Tries one random anchor, horizontal then vertical; on success ships 0..i are on the board, on failure nothing changes |
| Placement.RandomFallback | Player.cpp:555-565 | Ships are placed in id order at random anchors; true means every ship is on the board, and no cell is left blocked |
| Placement.PlacedKeepsEarlier | Player.cpp:558-561 | Placing ship i at a random anchor keeps ships 0..i-1 on the board, adds ship i, and leaves no blocked cell |
| Attacks.HitLoggedAppend | Player.cpp:400 | Logging keeps every earlier non-destroying hit, and logs the new one if it is one |
| Attacks.EvenCountAppend | Player.cpp:577-590 | Logging one attack adds one to the even-parity count exactly when the cell is even, so diagLeft never becomes true again once false |
| Attacks.EvenCount | Player.cpp:577-590 | The number of logged attacks on even cells is at most the number of logged attacks |
| Attacks.FreshPoint | Player.cpp:322-336 | The chosen point is valid, and when found it is not in the attack log |
| Attacks.CrossPoint | Player.cpp:338-385 | The chosen point is valid and lies on the center's row or column within 4 cells; when found it is not in the attack log |
| Attacks.ParityPoint | Player.cpp:613-637 | The chosen point is valid; when found it has even r+c and is not in the attack log |
| Attacks.TrackPoint | Player.cpp:640-709 | The chosen point is valid; while the hit stack is non-empty it is the top hit or a neighbour of it (once every hit is popped it may be any valid cell). The hit stack only loses entries from the top. When found, the point is not in the attack log |
| Players.Stacked | Player.cpp:33-40 | The awful placement keeps the board's shape and never overwrites a non-empty cell |
| Players.StackedPlacesAll | Player.cpp:33-40 | When the awful placement reports success, every ship from k on is on the board |
| Players.StepBack | Player.cpp:42-55 | Stepping back from a valid point gives a valid point |
| Players.StepBackCycles | Player.cpp:42-55 | The step's row-major index is the previous one modulo rows*cols, so (0,0) wraps to (rows-1, cols-1) |
| Players.AwfulPlayer.PlaceShips | Player.cpp:33-40 | Ship k is placed horizontally at (k, 0) in id order; the first failure returns false, and earlier placements stay |
| Players.AwfulPlayer.RecommendAttack | Player.cpp:42-55 | The recommended cell is the previous one stepped back once in row-major order |
| Players.AwfulPlayer.constructor | Player.cpp:29-31 | A new awful player starts its attack sweep at (0, 0) |
| Players.MediocrePlayer.PlaceShips | Player.cpp:293-318 | At most 50 rounds, stopping at the first success; no blocked cell remains, true means every ship is on the board, false means the board was only unblocked; the undo stack ends empty |
| Players.MediocrePlayer.RecommendAttack | Player.cpp:320-389 | Returns and records a valid point, not in the log when found; in state 2 it lies in the cross around the center |
| Players.MediocrePlayer.RecordAttackResult | Player.cpp:392-423 | An invalid shot changes nothing; a valid one appends exactly one log entry. In state 1 a non-destroying hit sets the center and moves to state 2; in state 2 a destroying hit returns to state 1. In state 2 the center is always a logged non-destroying hit |
| Players.MediocrePlayer.constructor | Player.cpp:195-199 | A new mediocre player starts in state 1 at (0, 0) with an empty log and an empty undo stack |
| Players.GoodPlayer.PlaceShips | Player.cpp:535-575 | At most 100 rounds, stopping at the first success, then the random fallback if none succeeded. No blocked cell remains, and true means every ship is on the board |
| Players.GoodPlayer.DiagLeft | Player.cpp:577-590 | True exactly when fewer than rows*cols/2 logged attacks are on even cells; in particular true while fewer than rows*cols/2 attacks are logged at all |
| Players.GoodPlayer.RecommendAttack | Player.cpp:592-714 | Returns and records a valid point, not in the log when found. State 1 while diagLeft holds (fewer than rows*cols/2 logged attacks on even cells) and no hits are pending returns an even cell. It switches to state 2 exactly when diagLeft holds and hits are pending. In state 2, while hits are still pending, the point is the top pending hit or a neighbour of it; once every hit is popped it may be any valid cell |
| Players.GoodPlayer.RecordAttackResult | Player.cpp:716-746 | An invalid shot changes nothing; a valid one appends exactly one log entry. Every non-destroying hit is pushed and moves to state 2; a destroying hit in state 2 returns to state 1 and keeps the stack. Every pending hit is a logged non-destroying hit |
| Players.GoodPlayer.constructor | Player.cpp:439-444 | A new good player starts in state 1 at (0, 0) with an empty log, no pending hits and an empty undo stack |
| Players.CreatePlayer | Player.cpp:758-776 | "human", "awful", "mediocre" and "good" give the matching kind, and any other name gives none |

## Left out

- HumanPlayer and its console input, `display`'s console output (only its per-cell filter is modelled), `GameImpl::play`, `waitForEnter`, and `recordAttackByOpponent`, which every automated player ignores. These are I/O and turn orchestration.
- AwfulPlayer's `recordAttackResult` does nothing and is not modelled.
- `Game::Game` terminates the process on out-of-range dimensions. That is process exit, so only `GameImpl`'s clamping is modelled.
- `Game::addShip` repeats the first checks of `GameImpl::addShip` before delegating, and prints messages. Since it accepts a superset of what the delegate accepts, the two together behave as `GameImpl.addShip` alone.
- The pimpl wrappers, destructors that drain stacks, and `new`/`delete` ownership.
- Boards and players read the game through a reference in the source. Here they hold a `Catalog` value, a snapshot taken after the catalog is complete.
- `MAXROWS` and `MAXCOLS` come from globals.h, which is not part of this model; both are taken to be 10.
- `randInt` is not part of this model. `Random.Int` stands in for it and promises only the range.
- Placement at an anchor one past the last row or column: the anchor check (Board.cpp:76-77) uses `>` instead of `>=`, so it lets such an anchor through. The footprint then lies beyond the logical grid, and the source reads `m_grid` there (Board.cpp:108-111). Past row rows or column cols, within the fixed MAXROWS x MAXCOLS array, those cells were never initialised. Past the array's own last column, the read falls into the next row: on a 10-column board, `m_grid[r][10]` is `m_grid[r+1][0]`. Past its last row, it leaves the array. The outcome of that read is therefore not determined by the source, and the model assumes such off-grid cells are never empty, so the placement fails. The modelled players make two such calls. The search makes a horizontal attempt at (rows, 0) after the scan wraps past the last row (Player.cpp:243-250). AwfulPlayer's placement tries ship k at (k, 0) for every k (Player.cpp:36-37), so with more ships than rows it tries (rows, 0) (a 3 x 10 game with four length-1 ships, for one). In both cases the model's placement fails there, and `Players.Stacked` then stops with false; the source's outcome depends on the memory it reads.
- `unplaceShip` has no bounds check, and both `placeShip` and `unplaceShip` accept `shipId == nShips` and then hit the catalog's id assertion. Callers must keep to in-bounds footprints and ids below nShips.
- Boards.Board.Block: the source draws until (rows*cols)/2 cells are blocked and never ends if too few cells are empty. Here it takes a draw budget, and `complete` reports whether the quota was met.
- Attacks.FreshPoint, Attacks.CrossPoint, Attacks.ParityPoint, Attacks.TrackPoint: the source redraws until it finds an unattacked cell, and can spin forever once none is reachable. Here each takes a redraw budget, and only `found == true` promises a fresh cell.
- Players.MediocrePlayer.RecommendAttack, Players.GoodPlayer.RecommendAttack: the source returns a cell not yet in the attack log on every return, because its redraw loops never give up. These methods use the budgeted searches above, so they promise a fresh cell only when `found` is true; otherwise the point is valid but may repeat an earlier attack.
- Placement.RandomFallback: the source retries a ship forever when no anchor fits. Here it stops after a budget of draws and returns false.
- Players.GoodPlayer.PlaceShips: when the fallback succeeds, the source leaves the undo stack as it was. It is empty in every reachable run, but the model states only that it is empty or unchanged.
- GameRules.Game.ShipName has no contract, since the name is free text with no rule.

=== FILE: attack.dfy ===
/** The attack-choice searches the automated players run over their attack
    logs (Player.cpp), each drawing from the injected random source. The
    source draws until it finds a cell it has not attacked; here each search
    gets a budget of redraws and reports whether it found one in time. */
module Attacks {
  import opened GameRules

  /** One logged attack result; only valid shots are logged. */
  datatype Entry = Entry(at: Point, hit: bool, destroyed: bool, shipId: int)

  predicate Logged(log: seq<Entry>, p: Point)
  {
    exists i :: 0 <= i < |log| && log[i].at == p
  }

  /** The log holds a hit on q that did not destroy its ship. */
  predicate HitLogged(log: seq<Entry>, q: Point)
  {
    exists i :: 0 <= i < |log| && log[i].at == q && log[i].hit && !log[i].destroyed
  }

  /** Logging keeps every earlier hit in the log, and a hit that does not
      destroy is logged as such. */
  lemma HitLoggedAppend(log: seq<Entry>, e: Entry, q: Point)
    requires HitLogged(log, q) || (e.at == q && e.hit && !e.destroyed)
    ensures HitLogged(log + [e], q)
  {
    if HitLogged(log, q) {
      var i :| 0 <= i < |log| && log[i].at == q && log[i].hit && !log[i].destroyed;
      assert (log + [e])[i] == log[i];
    } else {
      assert (log + [e])[|log|] == e;
    }
  }

  /** p lies on the row or the column of center, at most reach cells away. */
  predicate InCross(center: Point, p: Point, reach: int)
  {
    (p.r == center.r && center.c - reach <= p.c <= center.c + reach)
    || (p.c == center.c && center.r - reach <= p.r <= center.r + reach)
  }

  predicate Even(p: Point)
  {
    (p.r + p.c) % 2 == 0
  }

  /** The number of logged attacks on even-parity cells, counted in log order. */
  function EvenCount(log: seq<Entry>): (n: nat)
    ensures n <= |log|
  {
    if log == [] then 0
    else EvenCount(log[..|log| - 1]) + (if Even(log[|log| - 1].at) then 1 else 0)
  }

  /** Logging one more attack adds one to the even count exactly when the
      attacked cell has even parity, so the count never decreases. */
  lemma EvenCountAppend(log: seq<Entry>, e: Entry)
    ensures EvenCount(log + [e]) == EvenCount(log) + (if Even(e.at) then 1 else 0)
    ensures EvenCount(log) <= EvenCount(log + [e])
  {
    assert (log + [e])[..|log|] == log;
  }

  /** A uniformly random cell not yet in the log: draw, scan the log, and
      start the scan again from the first entry after every repeat. */
  method FreshPoint(cat: Catalog, log: seq<Entry>, rng: Random, draws: nat) returns (p: Point, found: bool)
    requires 1 <= cat.rows && 1 <= cat.cols
    modifies rng
    ensures cat.IsValid(p)
    ensures found ==> !Logged(log, p)
  {
    p := RandomPoint(cat, rng);
    var budget := draws;
    var i := 0;
    while i < |log|
      invariant 0 <= i <= |log| && cat.IsValid(p)
      invariant forall j :: 0 <= j < i ==> log[j].at != p
      decreases budget, |log| - i
    {
      if log[i].at == p {
        if budget == 0 {
          return p, false;
        }
        p := RandomPoint(cat, rng);
        budget := budget - 1;
        i := 0;
      } else {
        i := i + 1;
      }
    }
    found := true;
  }

  /** MediocrePlayer's cross search: the center itself, or after a repeat a
      random direction and a random distance of one to four cells from the
      center, clamped to the board. */
  method CrossPoint(cat: Catalog, log: seq<Entry>, center: Point, rng: Random, draws: nat) returns (p: Point, found: bool)
    requires cat.IsValid(center)
    modifies rng
    ensures cat.IsValid(p) && InCross(center, p, 4)
    ensures found ==> !Logged(log, p)
  {
    p := center;
    var budget := draws;
    var i := 0;
    while i < |log|
      invariant 0 <= i <= |log| && cat.IsValid(p) && InCross(center, p, 4)
      invariant forall j :: 0 <= j < i ==> log[j].at != p
      decreases budget, |log| - i
    {
      if log[i].at == p {
        if budget == 0 {
          return p, false;
        }
        p := center;
        var dir := rng.Int(4);
        var step := rng.Int(4);
        if dir == 0 {
          var r := p.r - 1 - step;
          p := Point(if r < 0 then 0 else r, p.c);
        } else if dir == 1 {
          var c := p.c + 1 + step;
          p := Point(p.r, if c >= cat.cols then cat.cols - 1 else c);
        } else if dir == 2 {
          var r := p.r + 1 + step;
          p := Point(if r >= cat.rows then cat.rows - 1 else r, p.c);
        } else {
          var c := p.c - 1 - step;
          p := Point(p.r, if c < 0 then 0 else c);
        }
        budget := budget - 1;
        i := 0;
      } else {
        i := i + 1;
      }
    }
    found := true;
  }

  /** GoodPlayer's diagonal search: a random cell of even parity that is not
      in the log; parity is re-established before each log entry is compared. */
  method ParityPoint(cat: Catalog, log: seq<Entry>, rng: Random, draws: nat) returns (p: Point, found: bool)
    requires 1 <= cat.rows && 1 <= cat.cols
    modifies rng
    ensures cat.IsValid(p)
    ensures found ==> Even(p) && !Logged(log, p)
  {
    p := RandomPoint(cat, rng);
    var budget := draws;
    while !Even(p)
      invariant cat.IsValid(p)
      decreases budget
    {
      if budget == 0 {
        return p, false;
      }
      p := RandomPoint(cat, rng);
      budget := budget - 1;
    }
    var i := 0;
    while i < |log|
      invariant 0 <= i <= |log| && cat.IsValid(p)
      invariant (0 < i || |log| == 0) ==> Even(p)
      invariant forall j :: 0 <= j < i ==> log[j].at != p
      decreases budget, |log| - i
    {
      ghost var b0, p0 := budget, p;
      while !Even(p)
        invariant cat.IsValid(p) && budget <= b0
        invariant 0 < i ==> p == p0
        decreases budget
      {
        if budget == 0 {
          return p, false;
        }
        p := RandomPoint(cat, rng);
        budget := budget - 1;
      }
      if log[i].at == p {
        if budget == 0 {
          return p, false;
        }
        p := RandomPoint(cat, rng);
        budget := budget - 1;
        i := 0;
      } else {
        i := i + 1;
      }
    }
    found := true;
  }

  /** p is q or one of q's four neighbours. */
  predicate Near(q: Point, p: Point)
  {
    (p.r == q.r && q.c - 1 <= p.c <= q.c + 1) || (p.c == q.c && q.r - 1 <= p.r <= q.r + 1)
  }

  /** GoodPlayer's tracking search over its stack of hit cells (top last):
      the top itself, or after a repeat one step in a random direction from
      the top, clamped to the board. Once all four directions have been
      tried the top is popped; with the stack empty a random cell is used. */
  method TrackPoint(cat: Catalog, log: seq<Entry>, nextOne: seq<Point>, rng: Random, draws: nat)
    returns (p: Point, stack: seq<Point>, found: bool)
    requires 1 <= cat.rows && 1 <= cat.cols
    requires forall k :: 0 <= k < |nextOne| ==> cat.IsValid(nextOne[k])
    modifies rng
    ensures cat.IsValid(p)
    ensures |stack| <= |nextOne| && stack == nextOne[..|stack|]
    ensures |stack| > 0 ==> Near(stack[|stack| - 1], p)
    ensures found ==> !Logged(log, p)
  {
    var tu, tr, td, tl := false, false, false, false;
    stack := nextOne;
    if |stack| > 0 {
      p := stack[|stack| - 1];
    } else {
      p := RandomPoint(cat, rng);
    }
    var budget := draws;
    var i := 0;
    while i < |log|
      invariant 0 <= i <= |log| && cat.IsValid(p)
      invariant |stack| <= |nextOne| && stack == nextOne[..|stack|]
      invariant |stack| > 0 ==> Near(stack[|stack| - 1], p)
      invariant forall j :: 0 <= j < i ==> log[j].at != p
      decreases budget, |log| - i
    {
      if log[i].at == p {
        if budget == 0 {
          return p, stack, false;
        }
        if tu && tr && td && tl {
          if |stack| > 0 {
            stack := stack[..|stack| - 1];
          }
          tu, tr, td, tl := false, false, false, false;
        }
        if |stack| > 0 {
          p := stack[|stack| - 1];
        } else {
          p := RandomPoint(cat, rng);
        }
        var dir := rng.Int(4);
        if dir == 0 {
          p := Point(if p.r - 1 < 0 then 0 else p.r - 1, p.c);
          tu := true;
        } else if dir == 1 {
          p := Point(p.r, if p.c + 1 >= cat.cols then cat.cols - 1 else p.c + 1);
          tr := true;
        } else if dir == 2 {
          p := Point(if p.r + 1 >= cat.rows then cat.rows - 1 else p.r + 1, p.c);
          td := true;
        } else {
          p := Point(p.r, if p.c - 1 < 0 then 0 else p.c - 1);
          tl := true;
        }
        budget := budget - 1;
        i := 0;
      } else {
        i := i + 1;
      }
    }
    found := true;
  }
}

=== FILE: board.dfy ===
/** One side's board (BoardImpl in Board.cpp): a rows x cols array of
    markers updated in place, each operation proved against the grid
    functions of module Grids. */
module Boards {
  import opened GameRules
  import opened Grids

  class Board {
    /** The game the board belongs to; its catalog is complete before any board exists. */
    const cat: Catalog
    const grid: array2<char>

    /** The board's cells as a value. */
    ghost function Cells(): (g: Grid)
      reads this, grid
      ensures Rect(g, grid.Length0, grid.Length1)
      ensures forall r, c :: 0 <= r < grid.Length0 && 0 <= c < grid.Length1 ==> g[r][c] == grid[r, c]
    {
      seq(grid.Length0, r requires 0 <= r < grid.Length0 reads grid =>
        seq(grid.Length1, c requires 0 <= c < grid.Length1 reads grid => grid[r, c]))
    }

    /** The array matches the game's dimensions and holds only markers the
        game knows. */
    ghost predicate Valid()
      reads this, grid
    {
      WellFormed(cat) && Shaped() && Legal(cat, Cells())
    }

    /** The array matches the game's dimensions; all the read-only scans need. */
    ghost predicate Shaped()
      reads this
    {
      grid.Length0 == cat.rows && grid.Length1 == cat.cols
    }

    /** A new board is empty. */
    constructor (game: Catalog)
      requires WellFormed(game)
      ensures Valid() && cat == game && fresh(grid)
      ensures Cells() == Blank(game.rows, game.cols)
    {
      cat := game;
      grid := new char[game.rows, game.cols]((r, c) => '.');
      new;
      GridExt(Cells(), Blank(game.rows, game.cols));
    }

    /** Sets every cell to empty. */
    method Clear()
      requires Valid()
      modifies grid
      ensures Valid()
      ensures Cells() == Blank(cat.rows, cat.cols)
    {
      var r := 0;
      while r < cat.rows
        invariant 0 <= r <= cat.rows
        invariant forall i, j :: 0 <= i < r && 0 <= j < cat.cols ==> grid[i, j] == '.'
      {
        var c := 0;
        while c < cat.cols
          invariant 0 <= c <= cat.cols
          invariant forall i, j :: 0 <= i < r && 0 <= j < cat.cols ==> grid[i, j] == '.'
          invariant forall j :: 0 <= j < c ==> grid[r, j] == '.'
        {
          grid[r, c] := '.';
          c := c + 1;
        }
        r := r + 1;
      }
      GridExt(Cells(), Blank(cat.rows, cat.cols));
    }

    /** Blocks (rows*cols)/2 empty cells drawn at random. The source draws
        until it has blocked that many; here at most `draws` draws are made,
        and `complete` says whether the quota was met. */
    method Block(rng: Random, draws: nat) returns (complete: bool)
      requires Valid()
      modifies grid, rng
      ensures Valid()
      ensures BlockedFrom(old(Cells()), Cells())
      ensures complete ==> Count(Cells(), '#') == Count(old(Cells()), '#') + (cat.rows * cat.cols) / 2
    {
      ghost var g0 := Cells();
      ghost var n0 := Count(g0, '#');
      var target := (cat.rows * cat.cols) / 2;
      var nonEmpty := 1 <= cat.rows;
      if !nonEmpty {
        assert target == 0;
      }
      var count := 0;
      var budget := draws;
      while count < target && 0 < budget
        invariant Valid()
        invariant 0 <= count <= target
        invariant BlockedFrom(g0, Cells())
        invariant Count(Cells(), '#') == n0 + count
      {
        assert nonEmpty;
        var blocked, _, _ := BlockDraw(rng, g0);
        if blocked {
          count := count + 1;
        }
        budget := budget - 1;
      }
      complete := count == target;
    }

    /** One draw of block: a random cell (r, c), blocked when it is empty;
      otherwise the board is left as it was. */
    method BlockDraw(rng: Random, ghost g0: Grid) returns (blocked: bool, r: int, c: int)
      requires Valid() && 1 <= cat.rows && 1 <= cat.cols && BlockedFrom(g0, Cells())
      modifies grid, rng
      ensures 0 <= r < cat.rows && 0 <= c < cat.cols
      ensures blocked == (old(Cells())[r][c] == '.')
      ensures Cells() == if blocked then old(Cells())[r := old(Cells())[r][c := '#']] else old(Cells())
      ensures Valid() && BlockedFrom(g0, Cells())
      ensures Count(Cells(), '#') == Count(old(Cells()), '#') + (if blocked then 1 else 0)
    {
      r := rng.Int(cat.rows);
      c := rng.Int(cat.cols);
      blocked := grid[r, c] == '.';
      if blocked {
        ghost var before := Cells();
        BlockCell(r, c);
        BlockStep(g0, before, r, c);
      }
    }

    /** Blocks the empty cell (r, c). */
    method BlockCell(r: int, c: int)
      requires Valid() && 0 <= r < cat.rows && 0 <= c < cat.cols && grid[r, c] == '.'
      modifies grid
      ensures Valid()
      ensures Cells() == old(Cells())[r := old(Cells())[r][c := '#']]
    {
      ghost var before := Cells();
      grid[r, c] := '#';
      GridExt(Cells(), before[r := before[r][c := '#']]);
    }

    /** Turns every blocked cell back into an empty one. */
    method Unblock()
      requires Valid()
      modifies grid
      ensures Valid()
      ensures Cells() == Unblocked(old(Cells()))
    {
      ghost var g0 := Cells();
      var r := 0;
      while r < cat.rows
        invariant 0 <= r <= cat.rows
        invariant forall i, j :: 0 <= i < cat.rows && 0 <= j < cat.cols ==>
          grid[i, j] == if i < r && g0[i][j] == '#' then '.' else g0[i][j]
      {
        var c := 0;
        while c < cat.cols
          invariant 0 <= c <= cat.cols
          invariant forall i, j :: 0 <= i < cat.rows && 0 <= j < cat.cols ==>
            grid[i, j] == if (i < r || (i == r && j < c)) && g0[i][j] == '#' then '.' else g0[i][j]
        {
          if grid[r, c] == '#' {
            grid[r, c] := '.';
          }
          c := c + 1;
        }
        r := r + 1;
      }
      GridExt(Cells(), Unblocked(g0));
    }

    /** Whether ch appears anywhere on the board. */
    method FindSymbol(ch: char) returns (found: bool)
      requires Shaped()
      ensures found == SymbolOn(Cells(), ch)
    {
      var r := 0;
      while r < cat.rows
        invariant 0 <= r <= cat.rows
        invariant forall i, j :: 0 <= i < r && 0 <= j < cat.cols ==> grid[i, j] != ch
      {
        var c := 0;
        while c < cat.cols
          invariant 0 <= c <= cat.cols
          invariant forall j :: 0 <= j < c ==> grid[r, j] != ch
        {
          if grid[r, c] == ch {
            assert InGrid(Cells(), r, c) && Cells()[r][c] == ch;
            return true;
          }
          c := c + 1;
        }
        r := r + 1;
      }
      found := false;
    }

    /** Whether every cell of the in-bounds rectangle from a to e holds ch. */
    method RectAll(a: Point, e: Point, ch: char) returns (all: bool)
      requires Shaped() && InsideRect(a, e, cat.rows, cat.cols)
      ensures all == RectIs(Cells(), a, e, ch)
    {
      ghost var g := Cells();
      var r := a.r;
      while r <= e.r
        invariant a.r <= r <= e.r + 1
        invariant forall i, j :: a.r <= i < r && a.c <= j <= e.c ==> g[i][j] == ch
      {
        var c := a.c;
        while c <= e.c
          invariant a.c <= c <= e.c + 1
          invariant forall j :: a.c <= j < c ==> g[r][j] == ch
        {
          if grid[r, c] != ch {
            assert InGrid(g, r, c) && InRect(a, e, r, c) && g[r][c] != ch;
            return false;
          }
          c := c + 1;
        }
        r := r + 1;
      }
      all := true;
    }

    /** Writes ch over the in-bounds rectangle from a to e. */
    method FillRect(a: Point, e: Point, ch: char)
      requires Valid() && InsideRect(a, e, cat.rows, cat.cols) && LegalCell(cat, ch)
      modifies grid
      ensures Valid()
      ensures Cells() == Fill(old(Cells()), a, e, ch)
    {
      ghost var g0 := Cells();
      var r := a.r;
      while r <= e.r
        invariant a.r <= r <= e.r + 1
        invariant forall i, j :: 0 <= i < cat.rows && 0 <= j < cat.cols ==>
          grid[i, j] == if InRect(a, e, i, j) && i < r then ch else g0[i][j]
      {
        var c := a.c;
        while c <= e.c
          invariant a.c <= c <= e.c + 1
          invariant forall i, j :: 0 <= i < cat.rows && 0 <= j < cat.cols ==>
            grid[i, j] == if InRect(a, e, i, j) && (i < r || (i == r && j < c)) then ch else g0[i][j]
        {
          grid[r, c] := ch;
          c := c + 1;
        }
        r := r + 1;
      }
      GridExt(Cells(), Fill(g0, a, e, ch));
    }

    /** Places ship shipId with its top or left cell at a. Refused (false,
        board unchanged) for a bad id or anchor, a footprint past the edge,
        a ship already on the board, or a footprint cell that is not empty. */
    method PlaceShip(a: Point, shipId: int, d: Direction) returns (ok: bool)
      requires Valid() && PlaceCallable(cat, a, shipId)
      modifies grid
      ensures Valid()
      ensures ok == Place(cat, old(Cells()), a, shipId, d).Some?
      ensures Cells() == if ok then Place(cat, old(Cells()), a, shipId, d).value else old(Cells())
    {
      if shipId > |cat.ships| || shipId < 0 {
        return false;
      }
      if a.r < 0 || a.c < 0 {
        return false;
      }
      if a.r > cat.rows || a.c > cat.cols {
        return false;
      }
      var len := cat.ships[shipId].length;
      var sym := cat.ships[shipId].symbol;
      if d == Horizontal && a.c + len > cat.cols {
        return false;
      }
      if d == Vertical && a.r + len > cat.rows {
        return false;
      }
      var e := EndPoint(a, len, d);
      var present := FindSymbol(sym);
      if present {
        return false;
      }
      // The lenient anchor check lets a horizontal anchor on row `rows` or a
      // vertical one on column `cols` through; such cells are never empty.
      if (d == Horizontal && a.r == cat.rows) || (d == Vertical && a.c == cat.cols) {
        return false;
      }
      assert ShipOk(cat.ships[shipId], cat.rows, cat.cols);
      var free := RectAll(a, e, '.');
      if !free {
        return false;
      }
      FillRect(a, e, sym);
      ok := true;
    }

    /** Removes ship shipId from the footprint anchored at a, provided every
        footprint cell holds that ship's symbol; otherwise changes nothing. */
    method UnplaceShip(a: Point, shipId: int, d: Direction) returns (ok: bool)
      requires Valid() && UnplaceCallable(cat, a, shipId, d)
      modifies grid
      ensures Valid()
      ensures ok == Unplace(cat, old(Cells()), a, shipId, d).Some?
      ensures Cells() == if ok then Unplace(cat, old(Cells()), a, shipId, d).value else old(Cells())
    {
      if shipId > |cat.ships| || shipId < 0 {
        return false;
      }
      var e := EndPoint(a, cat.ships[shipId].length, d);
      var whole := RectAll(a, e, cat.ships[shipId].symbol);
      if !whole {
        return false;
      }
      FillRect(a, e, '.');
      ok := true;
    }

    /** How many cells hold ch, counted row by row. */
    method CountCells(ch: char) returns (n: nat)
      requires Shaped()
      ensures n == Count(Cells(), ch)
    {
      ghost var g := Cells();
      n := 0;
      var r := 0;
      while r < cat.rows
        invariant 0 <= r <= cat.rows
        invariant n == Count(g[..r], ch)
      {
        var c := 0;
        while c < cat.cols
          invariant 0 <= c <= cat.cols
          invariant n == Count(g[..r], ch) + CountRow(g[r][..c], ch)
        {
          assert g[r][..c + 1][..c] == g[r][..c];
          if grid[r, c] == ch {
            n := n + 1;
          }
          c := c + 1;
        }
        assert g[r][..c] == g[r];
        assert g[..r + 1][..r] == g[..r];
        r := r + 1;
      }
      assert g[..r] == g;
    }

    /** The id of the first catalog entry whose symbol is ch, or -1. */
    method ShipIdOf(ch: char) returns (id: int)
      ensures id == SymbolIndex(cat.ships, ch)
    {
      id := -1;
      var k := 0;
      while k < |cat.ships|
        invariant 0 <= k <= |cat.ships|
        invariant forall j :: 0 <= j < k ==> cat.ships[j].symbol != ch
      {
        if cat.ships[k].symbol == ch {
          id := k;
          return;
        }
        k := k + 1;
      }
    }

    /** Fires at p. Refused (false, nothing changed) off the board or on a
        cell already hit or missed; otherwise a ship cell becomes a hit and
        an empty cell a miss, and only that cell changes. */
    method Attack(p: Point) returns (valid: bool, hit: bool, destroyed: bool, shipId: int)
      requires Valid()
      modifies grid
      ensures Valid()
      ensures Shot(valid, hit, destroyed, shipId) == AttackShot(cat, old(Cells()), p)
      ensures Cells() == AttackGrid(old(Cells()), p)
    {
      hit, destroyed, shipId := false, false, -1;
      if p.r < 0 || p.c < 0 {
        return false, hit, destroyed, shipId;
      }
      if p.r >= cat.rows || p.c >= cat.cols {
        return false, hit, destroyed, shipId;
      }
      if grid[p.r, p.c] == 'X' || grid[p.r, p.c] == 'o' {
        return false, hit, destroyed, shipId;
      }
      ghost var g0 := Cells();
      var mark: char;
      if grid[p.r, p.c] != '.' {
        var count := CountCells(grid[p.r, p.c]);
        if count == 1 {
          destroyed := true;
        }
        shipId := ShipIdOf(grid[p.r, p.c]);
        hit := true;
        mark := 'X';
      } else {
        mark := 'o';
      }
      MarkCell(p.r, p.c, mark);
      valid := true;
    }

    /** Writes a hit or miss marker into the cell (r, c). */
    method MarkCell(r: int, c: int, mark: char)
      requires Valid() && 0 <= r < cat.rows && 0 <= c < cat.cols && (mark == 'X' || mark == 'o')
      modifies grid
      ensures Valid()
      ensures Cells() == old(Cells())[r := old(Cells())[r][c := mark]]
    {
      ghost var before := Cells();
      grid[r, c] := mark;
      GridExt(Cells(), before[r := before[r][c := mark]]);
    }

    /** Whether no ship (and no blocked) cell remains. */
    method AllShipsDestroyed() returns (all: bool)
      requires Shaped()
      ensures all == AllDestroyed(Cells())
    {
      var r := 0;
      while r < cat.rows
        invariant 0 <= r <= cat.rows
        invariant forall i, j :: 0 <= i < r && 0 <= j < cat.cols ==>
          grid[i, j] == '.' || grid[i, j] == 'X' || grid[i, j] == 'o'
      {
        var c := 0;
        while c < cat.cols
          invariant 0 <= c <= cat.cols
          invariant forall j :: 0 <= j < c ==> grid[r, j] == '.' || grid[r, j] == 'X' || grid[r, j] == 'o'
        {
          if grid[r, c] != '.' && grid[r, c] != 'X' && grid[r, c] != 'o' {
            assert InGrid(Cells(), r, c);
            return false;
          }
          c := c + 1;
        }
        r := r + 1;
      }
      all := true;
    }
  }
}

=== FILE: game.dfy ===
/** Board geometry and the ship catalog of one game (Game.cpp), plus the
    random source the automated players and the board's blocking draw from. */
module GameRules {

  /** The largest board the game supports, in rows and in columns. */
  const MAXROWS: int := 10
  const MAXCOLS: int := 10

  datatype Option<T> = None | Some(value: T)

  /** A cell coordinate; whether it is on the board depends on the board. */
  datatype Point = Point(r: int, c: int)

  /** A ship extends rightwards (Horizontal) or downwards (Vertical) from its anchor. */
  datatype Direction = Horizontal | Vertical

  /** One catalog entry. A ship's id is its index in the catalog. */
  datatype ShipInfo = ShipInfo(length: int, symbol: char, name: string)

  /** What boards and players read from a game: its dimensions and its ship catalog. */
  datatype Catalog = Catalog(rows: int, cols: int, ships: seq<ShipInfo>)
  {
    /** p is a cell of the board; its row-major index then addresses one
        of the rows*cols cells. */
    predicate IsValid(p: Point)
      ensures IsValid(p) ==> 0 <= p.r * cols + p.c < rows * cols
    {
      var inside := 0 <= p.r < rows && 0 <= p.c < cols;
      assert inside ==> p.r * cols <= (rows - 1) * cols;
      inside
    }
  }

  /** A printable ASCII character (isascii and isprint both hold). */
  predicate Printable(ch: char)
  {
    ' ' <= ch <= '~'
  }

  /** The markers the board uses for hit, empty, miss and blocked cells. */
  predicate Reserved(ch: char)
  {
    ch == 'X' || ch == '.' || ch == 'o' || ch == '#'
  }

  /** The dimensions the game adopts for a requested board size. */
  function ClampDims(nRows: int, nCols: int): (d: (int, int))
    ensures 0 <= d.0 <= MAXROWS && 0 <= d.1 <= MAXCOLS
    ensures d.0 == 0 <==> d.1 == 0
    ensures 0 < nRows <= MAXROWS && 0 < nCols <= MAXCOLS ==> d == (nRows, nCols)
    ensures nRows <= 0 || nCols <= 0 ==> d == (0, 0)
    ensures 0 < nRows && 0 < nCols && (MAXROWS < nRows || MAXCOLS < nCols) ==> d == (MAXROWS, MAXCOLS)
  {
    if 0 < nRows <= MAXROWS && 0 < nCols <= MAXCOLS then (nRows, nCols)
    else if nRows <= 0 || nCols <= 0 then (0, 0)
    else (MAXROWS, MAXCOLS)
  }

  /** Sum of the catalog's lengths, accumulated in catalog order. */
  function TotalLength(ships: seq<ShipInfo>): int
  {
    if ships == [] then 0 else TotalLength(ships[..|ships| - 1]) + ships[|ships| - 1].length
  }

  /** The per-ship rules: a positive length that fits along at least one axis,
      and a printable symbol that is not one of the board's markers. */
  predicate ShipOk(s: ShipInfo, rows: int, cols: int)
  {
    1 <= s.length && !(s.length > rows && s.length > cols)
    && Printable(s.symbol) && !Reserved(s.symbol)
  }

  predicate SymbolUsed(ships: seq<ShipInfo>, ch: char)
  {
    exists i :: 0 <= i < |ships| && ships[i].symbol == ch
  }

  /** The catalog invariant: clamped dimensions, every ship obeys the
      per-ship rules, symbols are pairwise distinct, and the fleet's total
      length does not exceed the number of cells. */
  predicate WellFormed(cat: Catalog)
  {
    0 <= cat.rows <= MAXROWS && 0 <= cat.cols <= MAXCOLS && (cat.rows == 0 <==> cat.cols == 0)
    && (forall i :: 0 <= i < |cat.ships| ==> ShipOk(cat.ships[i], cat.rows, cat.cols))
    && (forall i, j :: 0 <= i < j < |cat.ships| ==> cat.ships[i].symbol != cat.ships[j].symbol)
    && TotalLength(cat.ships) <= cat.rows * cat.cols
  }

  /** When addShip accepts a new ship. */
  predicate CanAdd(cat: Catalog, length: int, symbol: char)
  {
    ShipOk(ShipInfo(length, symbol, ""), cat.rows, cat.cols)
    && !SymbolUsed(cat.ships, symbol)
    && TotalLength(cat.ships) + length <= cat.rows * cat.cols
  }

  /** Every ship the catalog accepts keeps the catalog invariant, and gets
      the next dense id. */
  lemma AddShipKeepsWellFormed(cat: Catalog, length: int, symbol: char, name: string)
    requires WellFormed(cat) && CanAdd(cat, length, symbol)
    ensures var grown := Catalog(cat.rows, cat.cols, cat.ships + [ShipInfo(length, symbol, name)]);
      WellFormed(grown) && grown.ships[|cat.ships|] == ShipInfo(length, symbol, name)
  {
    var s := cat.ships + [ShipInfo(length, symbol, name)];
    assert s[..|s| - 1] == cat.ships;
    assert TotalLength(s) == TotalLength(cat.ships) + length;
    forall i | 0 <= i < |s| ensures ShipOk(s[i], cat.rows, cat.cols) {
      if i < |cat.ships| {
        assert s[i] == cat.ships[i];
      }
    }
    forall i, j | 0 <= i < j < |s| ensures s[i].symbol != s[j].symbol {
      if j == |cat.ships| {
        assert s[i] == cat.ships[i];
      }
    }
  }

  /** Each ship occupies at least one cell, so a fleet has no more ships
      than the sum of its lengths. */
  lemma {:induction false} FleetCountBound(ships: seq<ShipInfo>)
    requires forall i :: 0 <= i < |ships| ==> 1 <= ships[i].length
    ensures |ships| <= TotalLength(ships)
  {
    if ships != [] {
      FleetCountBound(ships[..|ships| - 1]);
    }
  }

  /** The game object: fixed dimensions and a growing ship catalog. */
  class Game {
    const rows: int
    const cols: int
    var fleet: seq<ShipInfo>

    function Snapshot(): Catalog
      reads this
    {
      Catalog(rows, cols, fleet)
    }

    ghost predicate Valid()
      reads this
    {
      WellFormed(Snapshot())
    }

    /** Clamps the requested dimensions; the catalog starts empty. */
    constructor (nRows: int, nCols: int)
      ensures Valid()
      ensures (rows, cols) == ClampDims(nRows, nCols) && fleet == []
    {
      if 0 < nRows <= MAXROWS && 0 < nCols <= MAXCOLS {
        rows, cols := nRows, nCols;
      } else if nRows <= 0 || nCols <= 0 {
        rows, cols := 0, 0;
      } else {
        rows, cols := MAXROWS, MAXCOLS;
      }
      fleet := [];
    }

    /** Appends a ship when the catalog accepts it; otherwise changes nothing. */
    method AddShip(length: int, symbol: char, name: string) returns (ok: bool)
      requires Valid()
      modifies this
      ensures Valid()
      ensures ok == CanAdd(old(Snapshot()), length, symbol)
      ensures fleet == if ok then old(fleet) + [ShipInfo(length, symbol, name)] else old(fleet)
    {
      if length < 1 {
        return false;
      }
      if length > rows && length > cols {
        return false;
      }
      if !Printable(symbol) {
        return false;
      }
      if Reserved(symbol) {
        return false;
      }
      var total := 0;
      var i := 0;
      while i < |fleet|
        invariant 0 <= i <= |fleet|
        invariant total == TotalLength(fleet[..i])
        invariant !SymbolUsed(fleet[..i], symbol)
      {
        assert fleet[..i + 1][..i] == fleet[..i];
        total := total + fleet[i].length;
        if fleet[i].symbol == symbol {
          return false;
        }
        i := i + 1;
      }
      assert fleet[..i] == fleet;
      if total + length > rows * cols {
        return false;
      }
      AddShipKeepsWellFormed(Snapshot(), length, symbol, name);
      fleet := fleet + [ShipInfo(length, symbol, name)];
      ok := true;
    }

    /** The number of ships, bounded by the number of cells. */
    function NShips(): (n: int)
      requires Valid()
      reads this
      ensures 0 <= n <= rows * cols
    {
      FleetCountBound(fleet);
      |fleet|
    }

    function ShipLength(shipId: int): (len: int)
      requires Valid()
      requires 0 <= shipId < |fleet|
      reads this
      ensures 1 <= len && (len <= rows || len <= cols)
    {
      fleet[shipId].length
    }

    function ShipSymbol(shipId: int): (sym: char)
      requires Valid()
      requires 0 <= shipId < |fleet|
      reads this
      ensures Printable(sym) && !Reserved(sym)
      ensures forall j :: 0 <= j < |fleet| && j != shipId ==> fleet[j].symbol != sym
    {
      fleet[shipId].symbol
    }

    function ShipName(shipId: int): string
      requires 0 <= shipId < |fleet|
      reads this
    {
      fleet[shipId].name
    }
  }

  /** The process-wide random source, injected. Callers rely only on the
      range of what it returns; the congruential step is a stand-in. */
  class Random {
    var state: nat

    constructor (seed: nat)
      ensures state == seed
    {
      state := seed;
    }

    method Int(n: int) returns (r: int)
      requires 1 <= n
      modifies this
      ensures 0 <= r < n
    {
      state := (state * 1103515245 + 12345) % 0x8000_0000;
      r := state % n;
    }
  }

  /** A uniformly drawn cell of the board. */
  method RandomPoint(cat: Catalog, rng: Random) returns (p: Point)
    requires 1 <= cat.rows && 1 <= cat.cols
    modifies rng
    ensures cat.IsValid(p)
  {
    var r := rng.Int(cat.rows);
    var c := rng.Int(cat.cols);
    p := Point(r, c);
  }
}

=== FILE: grid.dfy ===
/** The values a board takes and what each board operation does to them
    (Board.cpp), stated as functions on a grid of markers. */
module Grids {
  import opened GameRules

  /** A board's markers, row by row: '.' empty, '#' blocked, 'X' hit,
      'o' miss, any other character the symbol of a placed ship. */
  type Grid = seq<seq<char>>

  predicate Rect(g: Grid, rows: int, cols: int)
  {
    |g| == rows && forall i :: 0 <= i < |g| ==> |g[i]| == cols
  }

  predicate InGrid(g: Grid, r: int, c: int)
  {
    0 <= r < |g| && 0 <= c < |g[r]|
  }

  /** A marker that may appear on a board of this catalog. */
  predicate LegalCell(cat: Catalog, ch: char)
  {
    ch == '.' || ch == '#' || ch == 'X' || ch == 'o' || SymbolIndex(cat.ships, ch) >= 0
  }

  ghost predicate Legal(cat: Catalog, g: Grid)
  {
    forall r, c :: InGrid(g, r, c) ==> LegalCell(cat, g[r][c])
  }

  /** The id of the first catalog entry with this symbol, or -1. */
  function SymbolIndex(ships: seq<ShipInfo>, ch: char): (k: int)
    ensures -1 <= k < |ships|
    ensures 0 <= k ==> ships[k].symbol == ch
    ensures forall j :: 0 <= j < |ships| && (k < 0 || j < k) ==> ships[j].symbol != ch
  {
    if ships == [] then -1
    else if ships[0].symbol == ch then 0
    else
      var k := SymbolIndex(ships[1..], ch);
      if k < 0 then -1 else k + 1
  }

  function Blank(rows: nat, cols: nat): Grid
  {
    seq(rows, _ => seq(cols, _ => '.'))
  }

  // ----- footprints -----

  /** The last cell of a ship of this length anchored at a. */
  function EndPoint(a: Point, len: int, d: Direction): Point
  {
    match d
    case Horizontal => Point(a.r, a.c + len - 1)
    case Vertical => Point(a.r + len - 1, a.c)
  }

  predicate InRect(a: Point, e: Point, r: int, c: int)
  {
    a.r <= r <= e.r && a.c <= c <= e.c
  }

  predicate InsideRect(a: Point, e: Point, rows: int, cols: int)
  {
    0 <= a.r <= e.r < rows && 0 <= a.c <= e.c < cols
  }

  /** Every on-grid cell of the rectangle from a to e holds ch. */
  ghost predicate RectIs(g: Grid, a: Point, e: Point, ch: char)
  {
    forall r, c :: InGrid(g, r, c) && InRect(a, e, r, c) ==> g[r][c] == ch
  }

  /** The grid with every cell of the rectangle from a to e set to ch. */
  function Fill(g: Grid, a: Point, e: Point, ch: char): Grid
  {
    seq(|g|, i requires 0 <= i < |g| =>
      seq(|g[i]|, j requires 0 <= j < |g[i]| => if InRect(a, e, i, j) then ch else g[i][j]))
  }

  ghost predicate SymbolOn(g: Grid, ch: char)
  {
    exists r, c :: InGrid(g, r, c) && g[r][c] == ch
  }

  /** Ship id's symbol fills the whole footprint anchored at a along d. */
  ghost predicate ShipAt(cat: Catalog, g: Grid, id: int, a: Point, d: Direction)
    requires 0 <= id < |cat.ships|
  {
    var e := EndPoint(a, cat.ships[id].length, d);
    InsideRect(a, e, cat.rows, cat.cols) && RectIs(g, a, e, cat.ships[id].symbol)
  }

  ghost predicate ShipOnBoard(cat: Catalog, g: Grid, id: int)
    requires 0 <= id < |cat.ships|
  {
    exists a: Point, d: Direction :: ShipAt(cat, g, id, a, d)
  }

  // ----- placeShip and unplaceShip -----

  /** The id and anchor checks placeShip makes before it looks the ship up.
      The anchor bound is lenient by one in each axis. */
  predicate PassesEarlyChecks(cat: Catalog, a: Point, id: int)
  {
    0 <= id <= |cat.ships| && 0 <= a.r && 0 <= a.c && a.r <= cat.rows && a.c <= cat.cols
  }

  /** The id check admits id == nShips, whose length lookup then fails an
      assertion; callers must not get that far with it. */
  predicate PlaceCallable(cat: Catalog, a: Point, id: int)
  {
    PassesEarlyChecks(cat, a, id) ==> id < |cat.ships|
  }

  /** placeShip: the new grid, or None when the placement is refused.
      A footprint cell beyond the logical grid (the lenient anchor check lets
      row == rows or col == cols through) is never '.', so it refuses. */
  ghost function Place(cat: Catalog, g: Grid, a: Point, id: int, d: Direction): (r: Option<Grid>)
    requires PlaceCallable(cat, a, id)
    ensures r.Some? ==> (0 <= id < |cat.ships| && PassesEarlyChecks(cat, a, id)
      && !SymbolOn(g, cat.ships[id].symbol)
      && InsideRect(a, EndPoint(a, cat.ships[id].length, d), cat.rows, cat.cols)
      && RectIs(g, a, EndPoint(a, cat.ships[id].length, d), '.')
      && RectIs(r.value, a, EndPoint(a, cat.ships[id].length, d), cat.ships[id].symbol))
  {
    if !PassesEarlyChecks(cat, a, id) then None
    else
      var len := cat.ships[id].length;
      var sym := cat.ships[id].symbol;
      var e := EndPoint(a, len, d);
      if (d == Horizontal && a.c + len > cat.cols) || (d == Vertical && a.r + len > cat.rows) then None
      else if SymbolOn(g, sym) then None
      else if !InsideRect(a, e, cat.rows, cat.cols) || !RectIs(g, a, e, '.') then None
      else Some(Fill(g, a, e, sym))
  }

  /** unplaceShip reads its footprint without a bounds check and looks the
      ship up for id == nShips, so callers keep to in-bounds footprints. */
  predicate UnplaceCallable(cat: Catalog, a: Point, id: int, d: Direction)
  {
    id != |cat.ships|
    && (0 <= id < |cat.ships| ==> InsideRect(a, EndPoint(a, cat.ships[id].length, d), cat.rows, cat.cols))
  }

  /** unplaceShip: the new grid, or None when the footprint does not hold
      exactly that ship's symbol. */
  ghost function Unplace(cat: Catalog, g: Grid, a: Point, id: int, d: Direction): (r: Option<Grid>)
    requires UnplaceCallable(cat, a, id, d)
    ensures r.Some? ==> (0 <= id < |cat.ships|
      && RectIs(g, a, EndPoint(a, cat.ships[id].length, d), cat.ships[id].symbol)
      && RectIs(r.value, a, EndPoint(a, cat.ships[id].length, d), '.'))
  {
    if id < 0 || id > |cat.ships| then None
    else
      var e := EndPoint(a, cat.ships[id].length, d);
      if RectIs(g, a, e, cat.ships[id].symbol) then Some(Fill(g, a, e, '.')) else None
  }

  // ----- attack -----

  /** attack's outputs: whether the shot was accepted, whether it hit,
      whether it destroyed the ship, and the ship's id (-1 when none). */
  datatype Shot = Shot(valid: bool, hit: bool, destroyed: bool, shipId: int)

  function CountRow(s: seq<char>, ch: char): nat
  {
    if s == [] then 0 else CountRow(s[..|s| - 1], ch) + (if s[|s| - 1] == ch then 1 else 0)
  }

  /** How many cells hold ch, counted in row-major order. */
  function Count(g: Grid, ch: char): nat
  {
    if g == [] then 0 else Count(g[..|g| - 1], ch) + CountRow(g[|g| - 1], ch)
  }

  predicate Attackable(g: Grid, p: Point)
  {
    InGrid(g, p.r, p.c) && g[p.r][p.c] != 'X' && g[p.r][p.c] != 'o'
  }

  /** attack's report on grid g: accepted exactly on an on-board cell not
      yet shot at; a miss or a refusal carries no id and no destruction. */
  ghost function AttackShot(cat: Catalog, g: Grid, p: Point): (s: Shot)
    ensures s.valid <==> Attackable(g, p)
    ensures s.hit ==> s.valid
    ensures !s.hit ==> !s.destroyed && s.shipId == -1
  {
    if !Attackable(g, p) then Shot(false, false, false, -1)
    else if g[p.r][p.c] != '.' then
      Shot(true, true, Count(g, g[p.r][p.c]) == 1, SymbolIndex(cat.ships, g[p.r][p.c]))
    else Shot(true, false, false, -1)
  }

  /** attack's new grid: only the attacked cell may change, and once
      attacked it cannot be attacked again. */
  function AttackGrid(g: Grid, p: Point): (r: Grid)
    ensures |r| == |g| && forall i :: 0 <= i < |g| ==> |r[i]| == |g[i]|
    ensures forall i, j :: InGrid(g, i, j) && (i != p.r || j != p.c) ==> r[i][j] == g[i][j]
    ensures !Attackable(g, p) ==> r == g
    ensures Attackable(g, p) ==> InGrid(r, p.r, p.c) && !Attackable(r, p)
  {
    if !Attackable(g, p) then g
    else g[p.r := g[p.r][p.c := if g[p.r][p.c] != '.' then 'X' else 'o']]
  }

  // ----- block, unblock, allShipsDestroyed, display -----

  /** g1 differs from g0 only by empty cells that became blocked. */
  ghost predicate BlockedFrom(g0: Grid, g1: Grid)
  {
    |g0| == |g1|
    && (forall r :: 0 <= r < |g0| ==> |g0[r]| == |g1[r]|)
    && forall r, c :: InGrid(g0, r, c) ==> g1[r][c] == g0[r][c] || (g0[r][c] == '.' && g1[r][c] == '#')
  }

  /** unblock's new grid: no blocked cell, and every other cell as it was. */
  function Unblocked(g: Grid): (r: Grid)
    ensures |r| == |g| && forall i :: 0 <= i < |g| ==> |r[i]| == |g[i]|
    ensures NoBlocked(r)
    ensures forall i, j :: InGrid(g, i, j) && g[i][j] != '#' ==> r[i][j] == g[i][j]
    ensures forall i, j :: InGrid(g, i, j) && g[i][j] == '#' ==> r[i][j] == '.'
  {
    seq(|g|, i requires 0 <= i < |g| =>
      seq(|g[i]|, j requires 0 <= j < |g[i]| => if g[i][j] == '#' then '.' else g[i][j]))
  }

  ghost predicate NoBlocked(g: Grid)
  {
    forall r, c :: InGrid(g, r, c) ==> g[r][c] != '#'
  }

  /** allShipsDestroyed: every cell is empty, hit or missed, so a blocked
      cell left on the board counts as an undestroyed ship. */
  ghost predicate AllDestroyed(g: Grid)
    ensures AllDestroyed(g) ==> NoBlocked(g)
  {
    forall r, c :: InGrid(g, r, c) ==> g[r][c] == '.' || g[r][c] == 'X' || g[r][c] == 'o'
  }

  /** The marker display shows for a cell: in shots-only mode a ship (or a
      blocked cell) looks empty, and only hits and misses stand out. */
  function Shown(cell: char, shotsOnly: bool): (ch: char)
    ensures !shotsOnly ==> ch == cell
    ensures shotsOnly ==> (ch == '.' || ch == 'X' || ch == 'o')
    ensures shotsOnly ==> ((ch == 'X') == (cell == 'X') && (ch == 'o') == (cell == 'o'))
  {
    if shotsOnly && cell != '.' && cell != 'X' && cell != 'o' then '.' else cell
  }

  // ----- lemmas -----

  /** Two grids of the same shape that agree cell by cell are equal. */
  lemma GridExt(a: Grid, b: Grid)
    requires |a| == |b| && forall i :: 0 <= i < |a| ==> |a[i]| == |b[i]|
    requires forall i, j :: 0 <= i < |a| && 0 <= j < |a[i]| ==> a[i][j] == b[i][j]
    ensures a == b
  {
    forall i | 0 <= i < |a| ensures a[i] == b[i] {
      assert |a[i]| == |b[i]|;
    }
  }

  /** The lenient anchor check is harmless, under the assumption that cells
      beyond the logical grid are never '.': a placement succeeds exactly when
      the footprint lies inside the grid, every footprint cell is empty and
      the ship's symbol is nowhere on the board. */
  lemma PlaceSucceedsIff(cat: Catalog, g: Grid, a: Point, id: int, d: Direction)
    requires WellFormed(cat) && 0 <= id < |cat.ships|
    ensures var e := EndPoint(a, cat.ships[id].length, d);
      Place(cat, g, a, id, d).Some?
      <==> InsideRect(a, e, cat.rows, cat.cols) && RectIs(g, a, e, '.') && !SymbolOn(g, cat.ships[id].symbol)
  {
  }

  /** After a placement the ship's symbol occupies exactly its footprint, and
      every other cell is as it was: ships never overlap and a ship is on the
      board at most once. */
  lemma PlacedExactlyOnFootprint(cat: Catalog, g: Grid, a: Point, id: int, d: Direction)
    requires WellFormed(cat) && Rect(g, cat.rows, cat.cols) && 0 <= id < |cat.ships|
    requires Place(cat, g, a, id, d).Some?
    ensures var g1 := Place(cat, g, a, id, d).value;
      var e := EndPoint(a, cat.ships[id].length, d);
      Rect(g1, cat.rows, cat.cols)
      && ShipAt(cat, g1, id, a, d)
      && (forall r, c :: InGrid(g, r, c) ==>
            (g1[r][c] == cat.ships[id].symbol <==> InRect(a, e, r, c))
            && (InRect(a, e, r, c) ==> g[r][c] == '.')
            && (!InRect(a, e, r, c) ==> g1[r][c] == g[r][c]))
  {
    var sym := cat.ships[id].symbol;
    var g1 := Place(cat, g, a, id, d).value;
    forall r, c | InGrid(g, r, c) && !InRect(a, EndPoint(a, cat.ships[id].length, d), r, c)
      ensures g1[r][c] != sym
    {
      assert g[r][c] != sym;
    }
  }

  /** Undoing a successful placement with the same arguments restores the
      grid exactly. */
  lemma PlaceUnplaceRoundTrip(cat: Catalog, g: Grid, a: Point, id: int, d: Direction)
    requires WellFormed(cat) && Rect(g, cat.rows, cat.cols) && 0 <= id < |cat.ships|
    requires Place(cat, g, a, id, d).Some?
    ensures UnplaceCallable(cat, a, id, d)
    ensures Unplace(cat, Place(cat, g, a, id, d).value, a, id, d) == Some(g)
  {
    var e := EndPoint(a, cat.ships[id].length, d);
    var g1 := Place(cat, g, a, id, d).value;
    var g2 := Fill(g1, a, e, '.');
    assert RectIs(g1, a, e, cat.ships[id].symbol);
    GridExt(g2, g);
  }

  /** Unplacing a ship and then placing it again with the same arguments
      restores the grid, provided the ship's symbol appeared only on that
      footprint (as it does on a legal board). */
  lemma UnplacePlaceRoundTrip(cat: Catalog, g: Grid, a: Point, id: int, d: Direction)
    requires WellFormed(cat) && Rect(g, cat.rows, cat.cols) && 0 <= id < |cat.ships|
    requires UnplaceCallable(cat, a, id, d) && Unplace(cat, g, a, id, d).Some?
    requires forall r, c :: (InGrid(g, r, c) && g[r][c] == cat.ships[id].symbol
      ==> InRect(a, EndPoint(a, cat.ships[id].length, d), r, c))
    ensures PlaceCallable(cat, a, id)
    ensures Place(cat, Unplace(cat, g, a, id, d).value, a, id, d) == Some(g)
  {
    var sym := cat.ships[id].symbol;
    var e := EndPoint(a, cat.ships[id].length, d);
    var g1 := Unplace(cat, g, a, id, d).value;
    assert g1 == Fill(g, a, e, '.');
    forall r, c | InGrid(g1, r, c) ensures g1[r][c] != sym {
      if !InRect(a, e, r, c) {
        assert g1[r][c] == g[r][c];
      }
    }
    assert !SymbolOn(g1, sym);
    GridExt(Fill(g1, a, e, sym), g);
  }

  lemma {:induction false} CountRowUpdate(s: seq<char>, j: int, x: char, ch: char)
    requires 0 <= j < |s|
    ensures CountRow(s[j := x], ch)
      == CountRow(s, ch) - (if s[j] == ch then 1 else 0) + (if x == ch then 1 else 0)
  {
    var t := s[j := x];
    if j == |s| - 1 {
      assert t[..|t| - 1] == s[..|s| - 1];
    } else {
      assert t[..|t| - 1] == s[..|s| - 1][j := x];
      CountRowUpdate(s[..|s| - 1], j, x, ch);
    }
  }

  /** Writing x over one cell changes the count of ch by that cell alone. */
  lemma {:induction false} CountUpdate(g: Grid, i: int, j: int, x: char, ch: char)
    requires InGrid(g, i, j)
    ensures Count(g[i := g[i][j := x]], ch)
      == Count(g, ch) - (if g[i][j] == ch then 1 else 0) + (if x == ch then 1 else 0)
  {
    var h := g[i := g[i][j := x]];
    if i == |g| - 1 {
      assert h[..|h| - 1] == g[..|g| - 1];
      CountRowUpdate(g[i], j, x, ch);
    } else {
      assert h[..|h| - 1] == g[..|g| - 1][i := g[i][j := x]];
      CountUpdate(g[..|g| - 1], i, j, x, ch);
    }
  }

  lemma {:induction false} CountRowZeroIff(s: seq<char>, ch: char)
    ensures CountRow(s, ch) == 0 <==> forall k :: 0 <= k < |s| ==> s[k] != ch
  {
    if s != [] {
      CountRowZeroIff(s[..|s| - 1], ch);
      assert forall k :: 0 <= k < |s| - 1 ==> s[..|s| - 1][k] == s[k];
    }
  }

  /** No cell holds ch exactly when ch's count is zero. */
  lemma {:induction false} CountZeroIff(g: Grid, ch: char)
    ensures Count(g, ch) == 0 <==> !SymbolOn(g, ch)
  {
    if g != [] {
      var front := g[..|g| - 1];
      CountZeroIff(front, ch);
      CountRowZeroIff(g[|g| - 1], ch);
      if SymbolOn(g, ch) {
        var r, c :| InGrid(g, r, c) && g[r][c] == ch;
        if r < |g| - 1 {
          assert InGrid(front, r, c) && front[r][c] == ch;
        }
      }
      if SymbolOn(front, ch) {
        var r, c :| InGrid(front, r, c) && front[r][c] == ch;
        assert InGrid(g, r, c) && g[r][c] == ch;
      }
    }
  }

  /** An accepted hit removes one copy of the ship's symbol; the ship is
      reported destroyed exactly when its symbol is then gone from the board. */
  lemma AttackDestroyedIffSymbolGone(cat: Catalog, g: Grid, p: Point)
    requires AttackShot(cat, g, p).hit
    ensures var sym := g[p.r][p.c];
      Count(AttackGrid(g, p), sym) == Count(g, sym) - 1
      && (AttackShot(cat, g, p).destroyed <==> !SymbolOn(AttackGrid(g, p), sym))
  {
    var sym := g[p.r][p.c];
    CountUpdate(g, p.r, p.c, 'X', sym);
    CountZeroIff(AttackGrid(g, p), sym);
  }

  /** On a legal board a hit reports the id of the ship whose symbol was hit,
      unless the cell was blocked. */
  lemma AttackReportsShipId(cat: Catalog, g: Grid, p: Point)
    requires Legal(cat, g) && AttackShot(cat, g, p).hit && g[p.r][p.c] != '#'
    ensures var id := AttackShot(cat, g, p).shipId;
      0 <= id < |cat.ships| && cat.ships[id].symbol == g[p.r][p.c]
  {
    assert LegalCell(cat, g[p.r][p.c]);
  }

  /** A second attack at a point that was accepted once is refused and
      changes nothing. */
  lemma SecondAttackRefused(cat: Catalog, g: Grid, p: Point)
    requires AttackShot(cat, g, p).valid
    ensures !AttackShot(cat, AttackGrid(g, p), p).valid
    ensures AttackGrid(AttackGrid(g, p), p) == AttackGrid(g, p)
  {
  }

  /** On a legal board, every ship is destroyed exactly when no cell holds a
      catalog symbol and none is blocked. */
  lemma AllDestroyedIffNoShipCells(cat: Catalog, g: Grid)
    requires WellFormed(cat) && Legal(cat, g)
    ensures AllDestroyed(g)
      <==> Count(g, '#') == 0 && forall id :: 0 <= id < |cat.ships| ==> Count(g, cat.ships[id].symbol) == 0
  {
    CountZeroIff(g, '#');
    forall id | 0 <= id < |cat.ships| {
      CountZeroIff(g, cat.ships[id].symbol);
    }
    if Count(g, '#') == 0 && forall id :: 0 <= id < |cat.ships| ==> Count(g, cat.ships[id].symbol) == 0 {
      forall r, c | InGrid(g, r, c) ensures g[r][c] == '.' || g[r][c] == 'X' || g[r][c] == 'o' {
        assert LegalCell(cat, g[r][c]);
        assert SymbolOn(g, g[r][c]);
      }
    }
    if AllDestroyed(g) {
      forall id | 0 <= id < |cat.ships| ensures !SymbolOn(g, cat.ships[id].symbol) {
        assert ShipOk(cat.ships[id], cat.rows, cat.cols);
      }
    }
  }

  /** Blocking only turns empty cells into blocked ones, so unblocking
      afterwards gives what unblocking before would have. */
  lemma UnblockUndoesBlock(g0: Grid, g1: Grid)
    requires BlockedFrom(g0, g1)
    ensures Unblocked(g1) == Unblocked(g0)
  {
    GridExt(Unblocked(g1), Unblocked(g0));
  }

  /** Blocking one more empty cell extends a blocking and adds one to the
      number of blocked cells. */
  lemma BlockStep(g0: Grid, g1: Grid, r: int, c: int)
    requires BlockedFrom(g0, g1) && InGrid(g1, r, c) && g1[r][c] == '.'
    ensures BlockedFrom(g0, g1[r := g1[r][c := '#']])
    ensures Count(g1[r := g1[r][c := '#']], '#') == Count(g1, '#') + 1
  {
    CountUpdate(g1, r, c, '#', '#');
  }

  lemma UnblockIdempotent(g: Grid)
    ensures NoBlocked(Unblocked(g))
    ensures Unblocked(Unblocked(g)) == Unblocked(g)
  {
    GridExt(Unblocked(Unblocked(g)), Unblocked(g));
  }
}

=== FILE: placement.dfy ===
/** The automated players' ship placement (Player.cpp): the backtracking
    search placedShips with its undo stack, the retry rounds of placeShips,
    and GoodPlayer's random fallback. MediocrePlayer and GoodPlayer carry
    identical copies of placedShips; it is modelled once. */
module Placement {
  import opened GameRules
  import opened Grids
  import opened Boards

  /** The points placedShips may be called at: columns run to `cols`
      (wrapped on entry), and the scan may reach row `rows` only before its
      last column, where both placements fail and the search gives up. */
  predicate ScanPoint(cat: Catalog, p: Point, k: int)
  {
    0 <= p.r && 0 <= p.c <= cat.cols
    && (p.r < cat.rows || (p.r == cat.rows && p.c < cat.cols) || k == |cat.ships|)
  }

  /** Column `cols` stands for the first column of the next row. */
  function Wrap(cat: Catalog, p: Point): Point
  {
    if p.c == cat.cols then Point(p.r + 1, 0) else p
  }

  /** A successful search: the final grid and the anchors pushed, in order. */
  datatype Layout = Layout(grid: Grid, anchors: seq<Point>)

  /** What placedShips(p, k) computes on grid g: ship k tries horizontal,
      then vertical, at p; the first direction that places is followed by
      AfterPlace, and the other direction is not tried at that anchor. */
  ghost function Search(cat: Catalog, g: Grid, p: Point, k: int): (r: Option<Layout>)
    requires WellFormed(cat) && 0 <= k <= |cat.ships| && ScanPoint(cat, p, k)
    ensures r.Some? ==> |r.value.anchors| == |cat.ships| - k
    ensures k == |cat.ships| ==> r == Some(Layout(g, []))
    decreases cat.rows - p.r, cat.cols - p.c, |cat.ships| - k, 1
  {
    if k == |cat.ships| then Some(Layout(g, []))
    else
      var q := Wrap(cat, p);
      if Place(cat, g, q, k, Horizontal).Some? then AfterPlace(cat, g, q, k, Horizontal)
      else if Place(cat, g, q, k, Vertical).Some? then AfterPlace(cat, g, q, k, Vertical)
      else if q.r == cat.rows then None
      else Search(cat, g, Point(q.r, q.c + 1), k)
  }

  /** Ship k was placed at q along d: search for the remaining ships from q;
      if that fails, undo the placement and scan on from the next column. */
  ghost function AfterPlace(cat: Catalog, g: Grid, q: Point, k: int, d: Direction): (r: Option<Layout>)
    requires WellFormed(cat) && 0 <= k < |cat.ships| && 0 <= q.c < cat.cols
    requires Place(cat, g, q, k, d).Some?
    ensures r.Some? ==> |r.value.anchors| == |cat.ships| - k
    decreases cat.rows - q.r, cat.cols - q.c, |cat.ships| - k, 0
  {
    match Search(cat, Place(cat, g, q, k, d).value, q, k + 1)
    case Some(l) => Some(Layout(l.grid, [q] + l.anchors))
    case None => Search(cat, g, Point(q.r, q.c + 1), k)
  }

  /** g1 keeps every non-empty cell of g0. */
  ghost predicate Keeps(g0: Grid, g1: Grid)
  {
    |g0| == |g1|
    && (forall r :: 0 <= r < |g0| ==> |g0[r]| == |g1[r]|)
    && forall r, c :: InGrid(g0, r, c) && g0[r][c] != '.' ==> g1[r][c] == g0[r][c]
  }

  /** Keeping non-empty cells is transitive. */
  lemma KeepsTrans(g0: Grid, g1: Grid, g2: Grid)
    requires Keeps(g0, g1) && Keeps(g1, g2)
    ensures Keeps(g0, g2)
  {
    forall r, c | InGrid(g0, r, c) && g0[r][c] != '.' ensures g2[r][c] == g0[r][c] {
      assert g1[r][c] == g0[r][c];
    }
  }

  /** A ship on the board stays there while non-empty cells are kept. */
  lemma KeepsShip(cat: Catalog, g0: Grid, g1: Grid, id: int)
    requires WellFormed(cat) && 0 <= id < |cat.ships|
    requires Keeps(g0, g1) && ShipOnBoard(cat, g0, id)
    ensures ShipOnBoard(cat, g1, id)
  {
    var a: Point, d: Direction :| ShipAt(cat, g0, id, a, d);
    assert ShipOk(cat.ships[id], cat.rows, cat.cols);
    assert ShipAt(cat, g1, id, a, d);
  }

  /** A successful placement keeps every non-empty cell and puts the ship on
      the board. */
  lemma PlaceKeeps(cat: Catalog, g: Grid, a: Point, id: int, d: Direction)
    requires WellFormed(cat) && Rect(g, cat.rows, cat.cols) && 0 <= id < |cat.ships|
    requires Place(cat, g, a, id, d).Some?
    ensures var g1 := Place(cat, g, a, id, d).value;
      Rect(g1, cat.rows, cat.cols) && Keeps(g, g1) && ShipAt(cat, g1, id, a, d)
      && (NoBlocked(g) ==> NoBlocked(g1))
  {
    PlacedExactlyOnFootprint(cat, g, a, id, d);
    assert ShipOk(cat.ships[id], cat.rows, cat.cols);
  }

  /** When the search succeeds, ships k..nShips-1 are all on the board,
      nothing already on the board was overwritten, and one anchor was
      pushed per ship. */
  lemma {:induction false} SearchPlacesAll(cat: Catalog, g: Grid, p: Point, k: int)
    requires WellFormed(cat) && Rect(g, cat.rows, cat.cols)
    requires 0 <= k <= |cat.ships| && ScanPoint(cat, p, k)
    requires Search(cat, g, p, k).Some?
    ensures var l := Search(cat, g, p, k).value;
      Rect(l.grid, cat.rows, cat.cols) && Keeps(g, l.grid) && |l.anchors| == |cat.ships| - k
      && forall id :: k <= id < |cat.ships| ==> ShipOnBoard(cat, l.grid, id)
    decreases cat.rows - p.r, cat.cols - p.c, |cat.ships| - k, 1
  {
    if k < |cat.ships| {
      var q := Wrap(cat, p);
      if Place(cat, g, q, k, Horizontal).Some? {
        AfterPlacePlacesAll(cat, g, q, k, Horizontal);
      } else if Place(cat, g, q, k, Vertical).Some? {
        AfterPlacePlacesAll(cat, g, q, k, Vertical);
      } else {
        SearchPlacesAll(cat, g, Point(q.r, q.c + 1), k);
      }
    }
  }

  lemma {:induction false} AfterPlacePlacesAll(cat: Catalog, g: Grid, q: Point, k: int, d: Direction)
    requires WellFormed(cat) && Rect(g, cat.rows, cat.cols)
    requires 0 <= k < |cat.ships| && 0 <= q.c < cat.cols
    requires Place(cat, g, q, k, d).Some? && AfterPlace(cat, g, q, k, d).Some?
    ensures var l := AfterPlace(cat, g, q, k, d).value;
      Rect(l.grid, cat.rows, cat.cols) && Keeps(g, l.grid) && |l.anchors| == |cat.ships| - k
      && forall id :: k <= id < |cat.ships| ==> ShipOnBoard(cat, l.grid, id)
    decreases cat.rows - q.r, cat.cols - q.c, |cat.ships| - k, 0
  {
    var g1 := Place(cat, g, q, k, d).value;
    PlaceKeeps(cat, g, q, k, d);
    if Search(cat, g1, q, k + 1).Some? {
      SearchPlacesAll(cat, g1, q, k + 1);
      ContinuationPlacesAll(cat, g, g1, Search(cat, g1, q, k + 1).value, k);
    } else {
      assert AfterPlace(cat, g, q, k, d) == Search(cat, g, Point(q.r, q.c + 1), k);
      SearchPlacesAll(cat, g, Point(q.r, q.c + 1), k);
    }
  }

  /** Ship k placed on g gives g1, and the remaining ships were then placed
      as l: the whole layout keeps g and holds ships k onwards. */
  lemma ContinuationPlacesAll(cat: Catalog, g: Grid, g1: Grid, l: Layout, k: int)
    requires WellFormed(cat) && 0 <= k < |cat.ships|
    requires Keeps(g, g1) && ShipOnBoard(cat, g1, k)
    requires Rect(l.grid, cat.rows, cat.cols) && Keeps(g1, l.grid) && |l.anchors| == |cat.ships| - (k + 1)
    requires forall id :: k + 1 <= id < |cat.ships| ==> ShipOnBoard(cat, l.grid, id)
    ensures Keeps(g, l.grid)
    ensures forall id :: k <= id < |cat.ships| ==> ShipOnBoard(cat, l.grid, id)
  {
    KeepsShip(cat, g1, l.grid, k);
    KeepsTrans(g, g1, l.grid);
  }

  /** placedShips(p, shipId) on board b with undo stack `recall`. On success
      the board holds the searched layout and the stack has gained one anchor
      per placed ship; on failure board and stack are exactly as on entry. */
  method PlacedShips(b: Board, p: Point, shipId: int, recall: seq<Point>) returns (ok: bool, stack: seq<Point>)
    requires b.Valid() && 0 <= shipId <= |b.cat.ships| && ScanPoint(b.cat, p, shipId)
    modifies b.grid
    ensures b.Valid()
    ensures ok == Search(b.cat, old(b.Cells()), p, shipId).Some?
    ensures ok ==> (b.Cells() == Search(b.cat, old(b.Cells()), p, shipId).value.grid
                    && stack == recall + Search(b.cat, old(b.Cells()), p, shipId).value.anchors)
    ensures !ok ==> b.Cells() == old(b.Cells()) && stack == recall
    decreases b.cat.rows - p.r, b.cat.cols - p.c, |b.cat.ships| - shipId, 1
  {
    if shipId == |b.cat.ships| {
      return true, recall;
    }
    var q := Wrap(b.cat, p);
    var placed := b.PlaceShip(q, shipId, Horizontal);
    if placed {
      ok, stack := Backtrack(b, q, shipId, Horizontal, recall, old(b.Cells()));
      return;
    }
    placed := b.PlaceShip(q, shipId, Vertical);
    if placed {
      ok, stack := Backtrack(b, q, shipId, Vertical, recall, old(b.Cells()));
      return;
    }
    if q.r == b.cat.rows {
      return false, recall;
    }
    ok, stack := PlacedShips(b, Point(q.r, q.c + 1), shipId, recall);
  }

  /** The rest of placedShips once ship shipId has just been placed at q
      along d: push q, search for the later ships, and on failure unplace the
      ship at the stack's top, pop it and move one column on. */
  method Backtrack(b: Board, q: Point, shipId: int, d: Direction, recall: seq<Point>, ghost g: Grid)
    returns (ok: bool, stack: seq<Point>)
    requires b.Valid() && 0 <= shipId < |b.cat.ships| && 0 <= q.c < b.cat.cols
    requires Rect(g, b.cat.rows, b.cat.cols)
    requires Place(b.cat, g, q, shipId, d).Some? && b.Cells() == Place(b.cat, g, q, shipId, d).value
    modifies b.grid
    ensures b.Valid()
    ensures ok == AfterPlace(b.cat, g, q, shipId, d).Some?
    ensures ok ==> (b.Cells() == AfterPlace(b.cat, g, q, shipId, d).value.grid
                    && stack == recall + AfterPlace(b.cat, g, q, shipId, d).value.anchors)
    ensures !ok ==> b.Cells() == g && stack == recall
    decreases b.cat.rows - q.r, b.cat.cols - q.c, |b.cat.ships| - shipId, 0
  {
    ok, stack := PlacedShips(b, q, shipId + 1, recall + [q]);
    if ok {
      return;
    }
    PlaceUnplaceRoundTrip(b.cat, g, q, shipId, d);
    var undone := b.UnplaceShip(stack[|stack| - 1], shipId, d);
    stack := stack[..|stack| - 1];
    assert stack == recall;
    ok, stack := PlacedShips(b, Point(q.r, q.c + 1), shipId, stack);
  }

  /** Every ship of the catalog is on the board. */
  ghost predicate AllPlaced(cat: Catalog, g: Grid)
  {
    forall id :: 0 <= id < |cat.ships| ==> ShipOnBoard(cat, g, id)
  }

  /** Unblocking leaves every ship where it was. */
  lemma UnblockKeepsShips(cat: Catalog, g: Grid)
    requires WellFormed(cat) && AllPlaced(cat, g)
    ensures AllPlaced(cat, Unblocked(g)) && NoBlocked(Unblocked(g))
  {
    forall id | 0 <= id < |cat.ships| ensures ShipOnBoard(cat, Unblocked(g), id) {
      assert ShipOnBoard(cat, g, id);
      var a: Point, d: Direction :| ShipAt(cat, g, id, a, d);
      assert ShipOk(cat.ships[id], cat.rows, cat.cols);
      var e := EndPoint(a, cat.ships[id].length, d);
      assert RectIs(Unblocked(g), a, e, cat.ships[id].symbol);
      assert ShipAt(cat, Unblocked(g), id, a, d);
    }
    UnblockIdempotent(g);
  }

  /** One successful round of block, search and unblock keeps every cell
      that was neither empty nor blocked before the round. */
  lemma RoundKeeps(before: Grid, blocked: Grid, placed: Grid)
    requires BlockedFrom(before, blocked) && Keeps(blocked, placed)
    ensures Keeps(Unblocked(before), Unblocked(placed))
  {
    forall r, c | InGrid(Unblocked(before), r, c) && Unblocked(before)[r][c] != '.'
      ensures Unblocked(placed)[r][c] == Unblocked(before)[r][c]
    {
      assert before[r][c] != '.' && before[r][c] != '#';
      assert blocked[r][c] == before[r][c];
    }
  }

  /** An empty board has no ships to place, so the scan may start at (0, 0). */
  lemma StartIsScanPoint(cat: Catalog)
    requires WellFormed(cat)
    ensures ScanPoint(cat, Point(0, 0), 0)
  {
    FleetCountBound(cat.ships);
  }

  /** The rounds of placeShips: block, search from (0, 0) with ship 0,
      unblock; stop at the first success, or give up after `rounds` rounds.
      Either way no blocked cell is left; a failed run changes the board only
      by unblocking it. */
  method Rounds(b: Board, rng: Random, rounds: nat, draws: nat, recall: seq<Point>) returns (ok: bool, stack: seq<Point>)
    requires b.Valid() && 1 <= rounds
    modifies b.grid, rng
    ensures b.Valid() && NoBlocked(b.Cells())
    ensures ok ==> AllPlaced(b.cat, b.Cells()) && Keeps(Unblocked(old(b.Cells())), b.Cells())
    ensures !ok ==> b.Cells() == Unblocked(old(b.Cells())) && stack == recall
  {
    StartIsScanPoint(b.cat);
    ghost var g0 := b.Cells();
    stack := recall;
    var count := 0;
    while count < rounds
      invariant b.Valid() && 0 <= count <= rounds && stack == recall
      invariant count == 0 ==> b.Cells() == g0
      invariant 0 < count ==> b.Cells() == Unblocked(g0)
    {
      ghost var before := b.Cells();
      var complete := b.Block(rng, draws);
      ghost var blocked := b.Cells();
      ok, stack := PlacedShips(b, Point(0, 0), 0, stack);
      if ok {
        SearchPlacesAll(b.cat, blocked, Point(0, 0), 0);
        ghost var placed := b.Cells();
        b.Unblock();
        UnblockKeepsShips(b.cat, placed);
        UnblockIdempotent(g0);
        RoundKeeps(before, blocked, placed);
        return;
      }
      b.Unblock();
      UnblockUndoesBlock(before, blocked);
      UnblockIdempotent(g0);
      count := count + 1;
    }
    UnblockIdempotent(g0);
    ok := false;
  }

  /** Placing ship i keeps the ships before it and adds no blocked cell. */
  lemma PlacedKeepsEarlier(cat: Catalog, g: Grid, a: Point, i: int, d: Direction)
    requires WellFormed(cat) && Rect(g, cat.rows, cat.cols) && 0 <= i < |cat.ships|
    requires NoBlocked(g) && forall id :: 0 <= id < i ==> ShipOnBoard(cat, g, id)
    requires Place(cat, g, a, i, d).Some?
    ensures var g1 := Place(cat, g, a, i, d).value;
      NoBlocked(g1) && forall id :: 0 <= id <= i ==> ShipOnBoard(cat, g1, id)
  {
    var g1 := Place(cat, g, a, i, d).value;
    PlaceKeeps(cat, g, a, i, d);
    forall id | 0 <= id < i ensures ShipOnBoard(cat, g1, id) {
      KeepsShip(cat, g, g1, id);
    }
    assert ShipAt(cat, g1, i, a, d);
  }

  /** One draw of the fallback: a random anchor for ship i, horizontal
      first, then vertical. On success the ship is on the board and the
      ships before it are untouched; on failure nothing changes. */
  method TryRandomAnchor(b: Board, rng: Random, i: int) returns (placed: bool)
    requires b.Valid() && NoBlocked(b.Cells()) && 0 <= i < |b.cat.ships|
    requires forall id :: 0 <= id < i ==> ShipOnBoard(b.cat, b.Cells(), id)
    modifies b.grid, rng
    ensures b.Valid() && NoBlocked(b.Cells())
    ensures placed ==> forall id :: 0 <= id <= i ==> ShipOnBoard(b.cat, b.Cells(), id)
    ensures !placed ==> b.Cells() == old(b.Cells())
  {
    FleetCountBound(b.cat.ships);
    var at := RandomPoint(b.cat, rng);
    ghost var before := b.Cells();
    placed := b.PlaceShip(at, i, Horizontal);
    if placed {
      PlacedKeepsEarlier(b.cat, before, at, i, Horizontal);
      return;
    }
    placed := b.PlaceShip(at, i, Vertical);
    if placed {
      PlacedKeepsEarlier(b.cat, before, at, i, Vertical);
    }
  }

  /** GoodPlayer's fallback: for each ship in id order, draw random anchors
      and try horizontal, then vertical, with no backtracking. The source
      draws until every ship is placed; here at most `draws` anchors are
      drawn, and false means the budget ran out. */
  method RandomFallback(b: Board, rng: Random, draws: nat) returns (ok: bool)
    requires b.Valid() && NoBlocked(b.Cells())
    modifies b.grid, rng
    ensures b.Valid() && NoBlocked(b.Cells())
    ensures ok ==> AllPlaced(b.cat, b.Cells())
  {
    var i := 0;
    var budget := draws;
    while i < |b.cat.ships| && 0 < budget
      invariant b.Valid() && NoBlocked(b.Cells())
      invariant 0 <= i <= |b.cat.ships|
      invariant forall id :: 0 <= id < i ==> ShipOnBoard(b.cat, b.Cells(), id)
    {
      var placed := TryRandomAnchor(b, rng, i);
      if placed {
        i := i + 1;
      }
      budget := budget - 1;
    }
    ok := i == |b.cat.ships|;
  }
}

=== FILE: players.dfy ===
/** The automated players (Player.cpp): AwfulPlayer, MediocrePlayer and
    GoodPlayer, each holding the catalog of the game it plays, and the
    factory that creates a player from its type name. */
module Players {
  import opened GameRules
  import opened Grids
  import opened Boards
  import opened Placement
  import opened Attacks

  /** Where the awful placement puts the fleet: ship k at (k, 0),
      horizontally, in id order, stopping at the first ship that does not
      fit; the flag says whether every ship was placed. */
  ghost function Stacked(cat: Catalog, g: Grid, k: int): (r: (bool, Grid))
    requires WellFormed(cat) && Rect(g, cat.rows, cat.cols) && 0 <= k <= |cat.ships|
    ensures Rect(r.1, cat.rows, cat.cols) && Keeps(g, r.1)
    decreases |cat.ships| - k
  {
    if k == |cat.ships| then (true, g)
    else match Place(cat, g, Point(k, 0), k, Horizontal)
      case None => (false, g)
      case Some(g1) =>
        PlaceKeeps(cat, g, Point(k, 0), k, Horizontal);
        var res := Stacked(cat, g1, k + 1);
        KeepsTrans(g, g1, res.1);
        res
  }

  /** When the awful placement succeeds, every ship from k on is on the board. */
  lemma {:induction false} StackedPlacesAll(cat: Catalog, g: Grid, k: int)
    requires WellFormed(cat) && Rect(g, cat.rows, cat.cols) && 0 <= k <= |cat.ships|
    ensures Stacked(cat, g, k).0 ==>
      forall id :: k <= id < |cat.ships| ==> ShipOnBoard(cat, Stacked(cat, g, k).1, id)
    decreases |cat.ships| - k
  {
    if k < |cat.ships| && Place(cat, g, Point(k, 0), k, Horizontal).Some? {
      var g1 := Place(cat, g, Point(k, 0), k, Horizontal).value;
      PlaceKeeps(cat, g, Point(k, 0), k, Horizontal);
      StackedPlacesAll(cat, g1, k + 1);
      var r := Stacked(cat, g1, k + 1);
      assert Stacked(cat, g, k) == r;
      assert ShipOnBoard(cat, g1, k);
      KeepsShip(cat, g1, r.1, k);
    }
  }

  /** Steps one cell backwards in row-major order, wrapping from (0, 0) to
      the bottom-right cell. */
  function StepBack(cat: Catalog, p: Point): (q: Point)
    ensures cat.IsValid(p) ==> cat.IsValid(q)
  {
    if p.c > 0 then Point(p.r, p.c - 1)
    else Point(if p.r > 0 then p.r - 1 else cat.rows - 1, cat.cols - 1)
  }

  /** The awful attack sweep visits the cells in decreasing row-major order,
      cyclically: each step decrements the row-major index modulo the
      number of cells. */
  lemma StepBackCycles(cat: Catalog, p: Point)
    requires cat.IsValid(p)
    ensures var q := StepBack(cat, p);
      q.r * cat.cols + q.c == (p.r * cat.cols + p.c - 1) % (cat.rows * cat.cols)
  {
    var q := StepBack(cat, p);
    var n := cat.rows * cat.cols;
    var i := p.r * cat.cols + p.c;
    assert cat.IsValid(p) && cat.IsValid(q);
    var j := q.r * cat.cols + q.c;
    if p.c > 0 {
      assert j == i - 1;
    } else if p.r > 0 {
      assert (p.r - 1) * cat.cols == p.r * cat.cols - cat.cols;
      assert j == i - 1;
    } else {
      assert (cat.rows - 1) * cat.cols == n - cat.cols;
      assert j == n - 1 && i == 0;
      ModMinusOne(n);
      return;
    }
    ModSmall(j, n);
  }

  /** Row-major wrap, inner step: an index already in [0, n) is its own
      remainder. */
  lemma ModSmall(x: int, n: int)
    requires 0 <= x < n
    ensures x % n == x
  {
    assert x == 0 * n + x;
  }

  /** Row-major wrap at (0, 0): stepping back from index 0 lands on the last
      index n - 1 (Dafny's % is Euclidean, so -1 % n is n - 1). */
  lemma ModMinusOne(n: int)
    requires 0 < n
    ensures (-1) % n == n - 1
  {
    assert -1 == (-1) * n + (n - 1);
  }

  class AwfulPlayer {
    const cat: Catalog
    var last: Point

    constructor (game: Catalog)
      ensures cat == game && last == Point(0, 0)
    {
      cat := game;
      last := Point(0, 0);
    }

    /** Clusters the fleet down column 0; gives up, without undoing
        anything, at the first ship that does not fit. */
    method PlaceShips(b: Board) returns (ok: bool)
      requires b.Valid() && b.cat == cat
      modifies b.grid
      ensures b.Valid()
      ensures (ok, b.Cells()) == Stacked(cat, old(b.Cells()), 0)
    {
      var k := 0;
      while k < |cat.ships|
        invariant b.Valid() && 0 <= k <= |cat.ships|
        invariant Stacked(cat, b.Cells(), k) == Stacked(cat, old(b.Cells()), 0)
      {
        var placed := b.PlaceShip(Point(k, 0), k, Horizontal);
        if !placed {
          return false;
        }
        k := k + 1;
      }
      ok := true;
    }

    /** The cell before the last one recommended, in row-major order. */
    method RecommendAttack() returns (p: Point)
      modifies this
      ensures last == StepBack(cat, old(last)) && p == last
    {
      if last.c > 0 {
        last := Point(last.r, last.c - 1);
      } else {
        last := Point(if last.r > 0 then last.r - 1 else cat.rows - 1, cat.cols - 1);
      }
      p := last;
    }
  }

  /** State 1 hunts for a ship; state 2 follows up a hit. */
  datatype Mode = Searching | Tracking

  class MediocrePlayer {
    const cat: Catalog
    var last: Point
    var mode: Mode
    var log: seq<Entry>
    var center: Point
    var recall: seq<Point>

    ghost predicate Valid()
      reads this
    {
      WellFormed(cat) && 1 <= cat.rows && cat.IsValid(center)
      && (mode == Tracking ==> HitLogged(log, center))
    }

    constructor (game: Catalog)
      requires WellFormed(game) && 1 <= game.rows
      ensures Valid() && cat == game
      ensures last == Point(0, 0) && mode == Searching && log == [] && recall == []
    {
      cat := game;
      last := Point(0, 0);
      mode := Searching;
      log := [];
      center := Point(0, 0);
      recall := [];
    }

    /** Up to 50 rounds of block, backtracking search and unblock. The undo
        stack is emptied whatever the outcome. */
    method PlaceShips(b: Board, rng: Random, draws: nat) returns (ok: bool)
      requires Valid() && b.Valid() && b.cat == cat
      modifies this, b.grid, rng
      ensures Valid() && b.Valid() && NoBlocked(b.Cells()) && recall == []
      ensures ok ==> AllPlaced(cat, b.Cells())
      ensures !ok ==> b.Cells() == Unblocked(old(b.Cells()))
      ensures last == old(last) && mode == old(mode) && log == old(log) && center == old(center)
    {
      ok, recall := Rounds(b, rng, 50, draws, recall);
      recall := [];
    }

    /** In state 1 a random cell not yet attacked; in state 2 a cell of the
        cross of reach four around the hit that started the state. */
    method RecommendAttack(rng: Random, draws: nat) returns (p: Point, found: bool)
      requires Valid()
      modifies this, rng
      ensures Valid() && p == last && cat.IsValid(p)
      ensures found ==> !Logged(log, p)
      ensures mode == Tracking ==> InCross(center, p, 4)
      ensures mode == old(mode) && log == old(log) && center == old(center) && recall == old(recall)
    {
      if mode == Searching {
        p, found := FreshPoint(cat, log, rng, draws);
      } else {
        p, found := CrossPoint(cat, log, center, rng, draws);
      }
      last := p;
    }

    /** Logs a valid shot; a hit that does not destroy starts state 2 around
        that cell, and a destroying hit ends state 2. */
    method RecordAttackResult(p: Point, validShot: bool, hit: bool, destroyed: bool, shipId: int)
      requires Valid() && (validShot ==> cat.IsValid(p))
      modifies this
      ensures Valid() && last == old(last) && recall == old(recall)
      ensures !validShot ==> log == old(log) && mode == old(mode) && center == old(center)
      ensures validShot ==> log == old(log) + [Entry(p, hit, destroyed, shipId)]
      ensures validShot && old(mode) == Searching ==>
        if hit && !destroyed then mode == Tracking && center == p
        else mode == Searching && center == old(center)
      ensures validShot && old(mode) == Tracking ==>
        mode == (if hit && destroyed then Searching else Tracking) && center == old(center)
    {
      if !validShot {
        return;
      }
      var e := Entry(p, hit, destroyed, shipId);
      if mode == Tracking {
        HitLoggedAppend(log, e, center);
      } else if hit && !destroyed {
        HitLoggedAppend(log, e, p);
      }
      log := log + [e];
      if mode == Searching {
        if hit && !destroyed {
          center := log[|log| - 1].at;
          mode := Tracking;
        }
      } else {
        if hit && destroyed {
          mode := Searching;
        }
      }
    }
  }

  class GoodPlayer {
    const cat: Catalog
    var last: Point
    var mode: Mode
    var log: seq<Entry>
    var nextOne: seq<Point>
    var recall: seq<Point>

    ghost predicate Valid()
      reads this
    {
      WellFormed(cat) && 1 <= cat.rows
      && (forall k :: 0 <= k < |nextOne| ==> cat.IsValid(nextOne[k]))
      && (forall k :: 0 <= k < |nextOne| ==> HitLogged(log, nextOne[k]))
    }

    constructor (game: Catalog)
      requires WellFormed(game) && 1 <= game.rows
      ensures Valid() && cat == game
      ensures last == Point(0, 0) && mode == Searching && log == [] && nextOne == [] && recall == []
    {
      cat := game;
      last := Point(0, 0);
      mode := Searching;
      log := [];
      nextOne := [];
      recall := [];
    }

    /** Up to 100 rounds of block, backtracking search and unblock; if all
        fail, the random fallback. The undo stack is emptied unless the
        fallback succeeds, in which case it is left as it was. */
    method PlaceShips(b: Board, rng: Random, draws: nat) returns (ok: bool)
      requires Valid() && b.Valid() && b.cat == cat
      modifies this, b.grid, rng
      ensures Valid() && b.Valid() && NoBlocked(b.Cells())
      ensures ok ==> AllPlaced(cat, b.Cells())
      ensures recall == [] || (ok && recall == old(recall))
      ensures last == old(last) && mode == old(mode) && log == old(log) && nextOne == old(nextOne)
    {
      ok, recall := Rounds(b, rng, 100, draws, recall);
      if ok {
        recall := [];
        return;
      }
      ok := RandomFallback(b, rng, draws);
      if !ok {
        recall := [];
      }
    }

    /** Whether fewer even-parity cells have been attacked than half the
        number of cells. */
    method DiagLeft() returns (left: bool)
      ensures left == (EvenCount(log) < cat.rows * cat.cols / 2)
      ensures |log| < cat.rows * cat.cols / 2 ==> left
    {
      var count := 0;
      var i := 0;
      while i < |log|
        invariant 0 <= i <= |log| && count == EvenCount(log[..i])
      {
        assert log[..i + 1][..i] == log[..i];
        if Even(log[i].at) {
          count := count + 1;
        }
        i := i + 1;
      }
      assert log[..i] == log;
      left := count < cat.rows * cat.cols / 2;
    }

    /** State 1: once diagLeft is false (rows*cols/2 logged attacks on even
        cells), a random fresh cell; else,
        with hits still to follow up, switch to state 2; else a random fresh
        even cell. State 2: the top hit or a neighbour of it, popping hits
        whose four directions have all been tried. */
    method RecommendAttack(rng: Random, draws: nat) returns (p: Point, found: bool)
      requires Valid()
      modifies this, rng
      ensures Valid() && p == last && cat.IsValid(p)
      ensures found ==> !Logged(log, p)
      ensures log == old(log) && recall == old(recall)
      ensures mode == Tracking <==>
        old(mode) == Tracking
        || (EvenCount(log) < cat.rows * cat.cols / 2 && old(nextOne) != [])
      ensures mode == Searching ==> nextOne == old(nextOne)
      ensures mode == Searching && EvenCount(log) < cat.rows * cat.cols / 2 && found ==> Even(p)
      ensures |nextOne| <= |old(nextOne)| && nextOne == old(nextOne)[..|nextOne|]
      ensures mode == Tracking && nextOne != [] ==> Near(nextOne[|nextOne| - 1], p)
    {
      found := false;
      if mode == Searching {
        var left := DiagLeft();
        if !left {
          p, found := FreshPoint(cat, log, rng, draws);
          last := p;
        } else if nextOne != [] {
          mode := Tracking;
        } else {
          p, found := ParityPoint(cat, log, rng, draws);
          last := p;
        }
      }
      if mode == Tracking {
        p, nextOne, found := TrackPoint(cat, log, nextOne, rng, draws);
        last := p;
      }
      p := last;
    }

    /** Logs a valid shot; every hit that does not destroy is pushed for
        follow-up and puts the player in state 2; a destroying hit in
        state 2 returns to state 1 and keeps the pushed hits. */
    method RecordAttackResult(p: Point, validShot: bool, hit: bool, destroyed: bool, shipId: int)
      requires Valid() && (validShot ==> cat.IsValid(p))
      modifies this
      ensures Valid() && last == old(last) && recall == old(recall)
      ensures !validShot ==> log == old(log) && mode == old(mode) && nextOne == old(nextOne)
      ensures validShot ==> log == old(log) + [Entry(p, hit, destroyed, shipId)]
      ensures validShot ==> nextOne == if hit && !destroyed then old(nextOne) + [p] else old(nextOne)
      ensures validShot ==> (mode ==
        if hit && !destroyed then Tracking
        else if old(mode) == Tracking && hit && destroyed then Searching
        else old(mode))
    {
      if !validShot {
        return;
      }
      var e := Entry(p, hit, destroyed, shipId);
      forall k | 0 <= k < |nextOne| ensures HitLogged(log + [e], nextOne[k]) {
        HitLoggedAppend(log, e, nextOne[k]);
      }
      if hit && !destroyed {
        HitLoggedAppend(log, e, p);
      }
      log := log + [e];
      if mode == Searching {
        if hit && !destroyed {
          nextOne := nextOne + [log[|log| - 1].at];
          mode := Tracking;
        }
      } else {
        if hit && !destroyed {
          nextOne := nextOne + [log[|log| - 1].at];
        }
        if hit && destroyed {
          mode := Searching;
        }
      }
    }
  }

  /** The kinds of player the factory knows, in the order of its name table. */
  datatype Kind = Human | Awful | Mediocre | Good

  const KindNames: seq<string> := ["human", "awful", "mediocre", "good"]
  const Kinds: seq<Kind> := [Human, Awful, Mediocre, Good]

  /** Looks the type name up in the name table; an unknown name yields no
      player. */
  method CreatePlayer(typeName: string) returns (kind: Option<Kind>)
    ensures kind == Some(Human) <==> typeName == "human"
    ensures kind == Some(Awful) <==> typeName == "awful"
    ensures kind == Some(Mediocre) <==> typeName == "mediocre"
    ensures kind == Some(Good) <==> typeName == "good"
    ensures kind == None <==> typeName !in KindNames
  {
    var pos := 0;
    while pos != |KindNames| && typeName != KindNames[pos]
      invariant 0 <= pos <= |KindNames|
      invariant forall j :: 0 <= j < pos ==> KindNames[j] != typeName
    {
      pos := pos + 1;
    }
    assert KindNames[0] == "human" && KindNames[1] == "awful";
    assert KindNames[2] == "mediocre" && KindNames[3] == "good";
    if pos < |Kinds| {
      kind := Some(Kinds[pos]);
    } else {
      kind := None;
    }
  }
}
